=== FILE: README.md ===
# bench write path, modelled in Dafny

This project models the write path of the `bench` time-series load-test server.

- **The record.** A `SensorData` row: timestamp, device, metric, value, priority 1/2/3 and a payload string.
- **The two insert paths of the database service.**
  - A single autocommitted insert.
  - An all-or-nothing transactional batch insert.
- **The buffered `BatchWriter`.**
  - `Write` pushes a record into a bounded channel.
  - A control loop drains the channel into a buffer. It hands a full buffer, or a non-empty buffer at a tick, to `flushBatch`. On cancellation it flushes the buffer once and returns.
  - `flushBatch` commits a batch in one transaction. It skips rows whose timestamp does not parse and aborts on the first failed INSERT.
- **The `PriorityWriter`.** It routes priority 1/2/3 to a high, medium or low lane (anything else goes to medium). Its `WriteBatch` partitions a list by the same rule and flushes each non-empty partition directly.
- **The payload helpers.**
  - The repeated-pattern padding and fallback payloads.
  - The target-size clamp.
  - The bounded random integers.
  - The base64 validation and size reports (Go's `StdEncoding`, section 4 of RFC 4648, is modelled too: encoder, decoder and their round trip).
- **The request rules of the HTTP handlers.**
  - Priority normalisation and required fields.
  - The alert rule for values above 100.
  - The batch bounds and the per-item skip-and-count loop.
  - The query checks with limit and offset defaults.

## How the model is set up

- **The record.** `Database.SensorData` is the record of database.go:10-17, field for field: timestamp, device, metric, value (a real), priority and payload. It is a datatype, so it has no row in the table below; `Database.Code` states its priority convention.
- **The database is a value `Store`.** It says whether a transaction begins, whether the INSERT statement prepares, whether commit succeeds, which rows an INSERT accepts, what the "latest value" query answers and whether the device-status upsert succeeds.
- **The latest-value query sees earlier writes.** It is given the rows that the same transaction already inserted, so a later item of a batch may see an earlier one.
- **RFC 3339 parsing is a parameter.** `time.Parse` with the RFC 3339 layout (section 5.6 of RFC 3339) is a `TimeParser` that returns an instant or nothing.
- **Results.** Each insert path returns a `TxResult`: the error, whether `Begin` was called (it may have failed), the rows executed in order, and the rows durably committed.
- **Loops are methods.** Every loop of the modelled code is a Dafny method with a loop and invariants.
  - These are proved equal to a specification function, whose properties are then proved as lemmas:
    - `InsertSensorDataBatch` against `InsertBatchSpec`;
    - `FlushBatch` against `FlushSpec`;
    - `PartitionByLane` against `Partition`;
    - `BatchReadWrite` against `BatchSpec`/`Process`.
  - `GenerateRandomInts` states its result element by element.
  - `ProcessLoop`, the `select` loop, is proved to leave the writer in exactly the state `Run` gives: the events of the schedule applied in order by `EventEffect`. It also keeps the class invariant `Valid` and consumes a prefix of the channel in order.
- **`GetPayloadInfo` has no loop.** It builds its map by straight-line assignments. Its contract gives every key for each branch.
- **`BatchWriter` is a class.** Its fields are:
  - the buffer;
  - the channel queue;
  - the batches handed to `flushBatch`;
  - the cancelled and stopped flags;
  - the ghost histories of admitted and consumed records.

  Its `select` loop becomes one method per event (`Receive`, `Tick`, `Done`). `ProcessLoop` runs a schedule of events, which stands for the order in which the `select` finds them ready. The invariant `Valid` states conservation and order:
  - the dispatched batches, concatenated and followed by the live buffer, are exactly the records taken from the channel;
  - those records, followed by the channel contents, are exactly the records `Write` admitted;
  - between events the buffer stays below `max(batchSize, 1)`, and every batch has 1 to `max(batchSize, 1)` records.
- **Handlers take decoded bodies.** Each handler receives the HTTP method and an already-decoded body (unreadable, malformed JSON, or decoded). It returns the reply (status and message, or the success fields), the committed rows and the committed device-status upserts.

## Model

| member | source | states |
|---|---|---|
| Database.Code | database.go:15 | the stored priority code is 1..3, 1 exactly for high and 3 exactly for low |
| Database.InsertSensorData | database.go:74-88 | no transaction; an unparseable timestamp fails with InvalidTimestamp before any exec; success exactly when the timestamp parses and the INSERT succeeds, and then exactly the record is stored |
| Database.FirstBad | database.go:113-123 | the index of the first record that stops the loop: every earlier record parses and inserts, the one at the index does not |
| Database.InsertBatchSpec | database.go:91-126 | empty list: nil, no transaction; success iff begin, prepare, every record's parse and INSERT, and commit succeed; all rows committed on success, none otherwise; executed rows are an in-order prefix, each of which parsed and inserted; a parse or INSERT failure names the record right after them as the one that stopped it, so it is the first bad record; commit only after every record ran |
| Database.InsertSensorDataBatch | database.go:91-126 | the loop with early returns computes exactly InsertBatchSpec |
| Writer.Parsable | writer.go:144-149 | the rows flushBatch executes are no more than its input and all have a parseable timestamp |
| Writer.ParsableAppend | writer.go:144-149 | the skip filter distributes over concatenation, so it keeps input order |
| Writer.FirstRejected | writer.go:150-155 | the first row whose INSERT fails: all earlier ones succeed |
| Writer.FlushSpec | writer.go:115-172 | the effect of flushBatch as a value; it has no contract of its own, and Writer.FlushProperties states what it promises |
| Writer.FlushProperties | writer.go:115-172 | empty list: nil without a transaction; success iff begin, prepare, every parseable row's INSERT and commit succeed; parseable rows, and only they, executed in order, each executed row accepted; committed rows are the parseable ones on success and none otherwise; an INSERT failure stops at the first rejected row |
| Writer.FlushStopsAt | writer.go:144-155 | when a parseable row is rejected after the earlier parseable rows were accepted, flushBatch fails with InsertFailed having executed exactly those earlier rows and committing nothing |
| Writer.FlushBatch | writer.go:115-172 | the loop with skip and early return computes exactly FlushSpec |
| Writer.FlushStep | writer.go:78-110 | dispatching a non-empty buffer of at most max(batchSize,1) records keeps conservation and the batch bounds, whether the loop goes on with an empty buffer or stops |
| Writer.ArriveStep | writer.go:74-87 | appending a received record either keeps it buffered below the threshold or completes a batch of exactly max(batchSize,1) records, and the loop invariant holds afterwards |
| Writer.BatchWriter.constructor | writer.go:30-48 | a new writer with empty buffer and channel, nothing dispatched, loop running, invariant established; the ticker period must be positive, as time.NewTicker demands |
| Writer.BatchWriter.Arrive | writer.go:74-87 | the record is appended; when the buffer reaches batchSize the whole buffer, in arrival order, is dispatched as one batch of exactly max(batchSize,1) records and the buffer empties; otherwise nothing is dispatched |
| Writer.BatchWriter.Write | writer.go:41-58 | succeeds iff the channel holds fewer than batchSize*10 records (for an unbuffered channel: iff the loop still runs); on success the record joins the tail, otherwise WriteTimeout and nothing changes |
| Writer.BatchWriter.Enqueue | writer.go:53-54 | a send into a channel with room appends at the tail and keeps the invariant |
| Writer.BatchWriter.HandOff | writer.go:41-54 | with batchSize 0 a sent record is received at once and dispatched alone |
| Writer.BatchWriter.Receive | writer.go:74-87 | the head of the channel is consumed, with the Arrive behaviour, and the conservation invariant kept |
| Writer.BatchWriter.Tick | writer.go:89-100 | an empty buffer: nothing dispatched, nothing changed; otherwise exactly the buffer is dispatched and emptied |
| Writer.BatchWriter.Done | writer.go:102-110 | the buffer is flushed once, synchronously, if non-empty, and the loop stops; queued records stay in the channel |
| Writer.BatchWriter.Close | writer.go:175-183 | cancels the context and changes nothing else |
| Writer.RunStopped | writer.go:102-110 | once the loop has returned, later events change nothing |
| Writer.RunOutcome | writer.go:71-112 | the loop returns exactly when it had returned already or cancellation is signalled and a Done event comes; dispatched batches are only ever appended to; the channel only loses records at its head |
| Writer.BatchWriter.Serve | writer.go:72-111 | one turn of the select: the chosen case has exactly the effect EventEffect gives (receive only from a non-empty channel, Done only once cancelled), keeps the invariant, and consumes the channel head exactly on a receive |
| Writer.BatchWriter.ProcessLoop | writer.go:71-112 | the buffer, channel, dispatched batches and stop flag end exactly as Run gives for the schedule; the invariant is kept; a prefix of the channel is consumed in order; nothing is admitted; batches already dispatched stay as they were |
| Writer.BatchWriter.WriteBatch | writer.go:61-68 | an empty list is nil; otherwise flushBatch on the list itself, bypassing the buffer |
| Writer.LaneOf | writer.go:273-284 | priority 1, 2, 3 select the lane with that code; anything else selects medium |
| Writer.Partition | writer.go:293-304 | the records of one lane in input order; its properties are Writer.PartitionRoutes and Writer.PartitionExact |
| Writer.PartitionRoutes | writer.go:293-304 | every record of a lane's partition routes to that lane |
| Writer.PartitionExact | writer.go:293-304 | the three partitions together are the input: lengths add up and the multisets union to it |
| Writer.PartitionByLane | writer.go:288-304 | the grouping loop produces exactly the three order-preserving partitions |
| Writer.CollectLanes | writer.go:306-353 | after the three lane steps a lane has a result iff its partition is non-empty, that result is the lane's own, and the failed list names exactly the lanes whose result is an error |
| Writer.PriorityWriter.constructor | writer.go:263-270 | lanes of batch size batchSize/2, batchSize and batchSize*2, flushed every 100 ms, 500 ms and 2 s |
| Writer.PriorityWriter.Write | writer.go:273-284 | only the lane chosen by LaneOf changes: it admits the record iff its channel has room (or, unbuffered, its loop runs); on success the record joins that lane's queue at the tail (unbuffered: it is dispatched alone), otherwise WriteTimeout and the lane's buffer, queue and dispatched batches are unchanged |
| Writer.PriorityWriter.WriteBatch | writer.go:287-354 | a lane is written iff its partition is non-empty, with exactly its partition; nil iff every lane call succeeded; an error names exactly the failing lanes |
| Writer.PriorityWriter.FlushLane | writer.go:311-345 | one lane's share of WriteBatch: an empty partition makes no call; a non-empty one records the lane's flushBatch outcome and, on error, adds the lane to the failed list |
| Writer.PriorityWriter.Close | writer.go:357-377 | every lane is cancelled and nil is returned |
| Payload.Repeat | utils.go:128 | n copies of a 24-character pattern have 24n characters |
| Payload.RepeatAt | utils.go:128 | character i of the repetition is character i mod 24 of the pattern |
| Payload.RepeatCycles | utils.go:128 | the same for every index at once |
| Payload.Fill | utils.go:124-133 | repeats plus remainder give exactly size characters cycling through the pattern |
| Payload.GeneratePadding | utils.go:111-134 | "" for size <= 0; otherwise exactly size characters, the cycled padding pattern |
| Payload.AsciiBytes | utils.go:154 | the byte conversion keeps length and code of every ASCII character |
| Payload.FillAscii | utils.go:139-154 | the fallback text is ASCII, so its bytes are its characters |
| Payload.GenerateFallbackPayload | utils.go:137-155 | up to 24: the raw pattern prefix, not encoded; above: base64 that decodes to exactly targetSize bytes of the cycled pattern |
| Payload.ClampTargetSize | utils.go:25-32 | the target lies in 1..65535: <= 0 becomes 1024, above 65535 becomes 65535, others unchanged |
| Payload.GenerateRandomInts | utils.go:67-81 | a fresh array of count values, each the big-endian word of its four bytes mod 10000, all in 0..9999 |
| Payload.ValidatePayloadData | utils.go:187-204 | true iff empty, or valid base64 decoding to at most 65535 bytes |
| Payload.GetPayloadSizeInBytes | utils.go:158-164 | the decoded length for valid base64, else the raw length |
| Payload.SizeOfEncoded | utils.go:154-163 | encoded data is reported at its original byte size |
| Payload.ValidateEncoded | utils.go:187-204 | encoded data validates iff it is at most 65535 bytes |
| Payload.SizeOfFallback | utils.go:137-164 | a fallback payload above 24 is reported at its target size and validates iff that is at most 65535 |
| Payload.GetPayloadInfo | utils.go:207-237 | is_empty, raw_size always; "" is valid with decoded_size 0; invalid base64 reports is_valid false and no structure; valid base64 reports its decoded size and, when the JSON parses, its counts |
| Base64.CharOf | utils.go:154 | every 6-bit value has an alphabet character that decodes back to it |
| Base64.ValueOf | utils.go:159 | an alphabet character decodes to a 6-bit value |
| Base64.CharOfValueOf | utils.go:159 | encoding a decoded alphabet character gives it back |
| Base64.Encode | utils.go:154 | the encoding has 4 characters per started group of 3 bytes, drawn from the alphabet and '=' |
| Base64.StripNewlines | utils.go:159 | the result holds no line break, keeps every other character as often as the input has it, and is never longer |
| Base64.Decode | utils.go:159 | DecodeString: line breaks are dropped and the rest decoded quantum by quantum; its round trip is Base64.DecodeEncode |
| Base64.DecodeQuanta | utils.go:159 | a decodable text has a length divisible by 4 and yields 3 bytes per quantum, less up to 2 for padding |
| Base64.StripWithoutNewlines | utils.go:154-159 | text without line breaks is decoded as it is |
| Base64.QuantumRoundTrip | utils.go:154-159 | the three bytes of a quantum come back from its four characters |
| Base64.DecodeQuantaEncode | utils.go:154-159 | decoding an encoding gives back its bytes |
| Base64.DecodeEncode | utils.go:154-164 | DecodeString(EncodeToString(b)) succeeds with b |
| Handlers.NormalisePriority | handlers.go:39-41 | the result is in 1..3: an in-range priority is kept, any other becomes 2 |
| Handlers.NormalisedRouting | handlers.go:286-288 | normalising does not change the lane the priority writer picks, and is idempotent |
| Handlers.HandleSensorData | handlers.go:13-55 | 405 for a non-POST; 400 for a missing field; success iff the normalised record parses and inserts, and then exactly it is stored; an unparseable timestamp is a 500 database error on this path |
| Handlers.HandleReadWrite | handlers.go:58-201 | success iff fields present, begin, the read (an empty result is fine), the timestamp, the INSERT and commit all succeed; the previous value is the latest one or 0; alert exactly above 100 and then priority 1; the upsert carries alert count 1 exactly on alert; a bad timestamp after a good read is 400; every failure stores nothing |
| Handlers.StatusFailureIgnored | handlers.go:171-175 | a failing status upsert changes neither the reply nor the stored rows |
| Handlers.Step | handlers.go:279-349 | one item of the loop: skipped without fields or on a failed read; otherwise an alert is counted, then the row is stored and reported only if its timestamp parses and the INSERT succeeds |
| Handlers.Process | handlers.go:279-349 | the loop over all items from an empty state; characterised by Handlers.ProcessExact and Handlers.ProcessAlerts |
| Handlers.BatchSpec | handlers.go:204-368 | the batch handler as a value; Handlers.BatchProperties states what it promises |
| Handlers.CountAlerts | handlers.go:304-309 | the number of reported alerts: at most the number of entries, 0 iff no entry is an alert, all iff every entry is |
| Handlers.CountOver | handlers.go:304-309 | the number of items above 100: at most the number of items, 0 iff none is above, all iff every one is |
| Handlers.ProcessShape | handlers.go:279-349 | entries and inserted rows correspond one to one; every entry is well formed and matches its row; every stored row had its fields, parsed and inserted |
| Handlers.SelectedExact | handlers.go:279-325 | the stored positions (fields, successful read, parse, INSERT) and the counted-alert positions (fields, successful read, above 100) are listed each once, increasing, and exactly when the item qualifies |
| Handlers.ProcessExact | handlers.go:279-349 | the inserted rows and entries are exactly those of the stored items, in item order; each entry reports the previous value that its read returned given the rows inserted before it |
| Handlers.ProcessAlerts | handlers.go:304-310 | total_alerts is exactly the number of items that have their fields, pass the read and are above 100 |
| Handlers.CleanProcess | handlers.go:279-349 | when every item is complete, readable, parseable and accepted, every item is stored in order and total_alerts is the number of items above 100 |
| Handlers.CleanBatch | handlers.go:204-368 | on such a batch the reply has total_processed equal to the number of items and total_alerts equal to the number above 100, and the committed rows are the items' rows in order |
| Handlers.StepAlerts | handlers.go:304-325 | one item raises total_alerts by at most one, only when it is above 100, and by at least the alerts it adds to the results |
| Handlers.AlertBounds | handlers.go:304-325 | total_alerts is at least the alerts among the results and at most the items above 100 |
| Handlers.DroppedAlertCounted | handlers.go:304-319 | after any prefix, an over-threshold item that passes the read but has an unparseable timestamp adds one to total_alerts and nothing to the results or the inserted rows |
| Handlers.SkipIncomplete | handlers.go:281-283 | an item missing a required field leaves the accumulated state unchanged |
| Handlers.BatchProperties | handlers.go:204-368 | 0 or more than 1000 items: 400; success iff POST, 1..1000 items, begin and commit succeed; total_processed equals the number of entries and of committed rows; the committed rows are exactly the stored items' rows in item order; total_alerts is exactly the number of counted alerts, and within the alert bounds; every entry well formed and matching its committed row; failures store nothing |
| Handlers.ProcessStatusIgnored | handlers.go:328-331 | in the item loop a failing status upsert changes only the upserts recorded |
| Handlers.BatchStatusFailureIgnored | handlers.go:328-331 | a failing status upsert changes neither the batch reply nor the committed rows |
| Handlers.BatchReadWrite | handlers.go:204-368 | the handler with its item loop computes exactly BatchSpec |
| Handlers.NormaliseLimit | handlers.go:438-440 | the limit lies in 1..10000: an in-range limit is kept, any other becomes 1000 |
| Handlers.NormaliseOffset | handlers.go:442-444 | the offset is non-negative: a negative one becomes 0 |
| Handlers.NormaliseIdempotent | handlers.go:438-444 | applying either default twice changes nothing |
| Handlers.ValidateQuery | handlers.go:385-444 | a query is built iff POST, decoded, device and both times present, both times parse and start is not after end; it keeps device and metric and carries the normalised limit and offset; failures are 400 or 405 |

## Code and documentation differences

- Closing a lane yields no "lane closed" error. `Write` on a closed `BatchWriter` still enqueues while the channel has room. The model follows the code.
- Records still waiting in the channel when the loop sees cancellation are never flushed.
- `BatchWriter.WriteBatch` and therefore `PriorityWriter.WriteBatch` go straight to `flushBatch` and bypass the buffer.
- Shutdown does not wait for the loop. `Close` sleeps a fixed 100 ms.
- `flushBatch` skips rows with a bad timestamp, while `InsertSensorDataBatch` fails the whole batch on one.
- The single-record handler reports a bad timestamp as a 500 database error. The read-write handler reports it as a 400.

## Left out

- HTTP transport, JSON decoding and encoding, and SQL text. Handlers take decoded bodies, and the database is the `Store` value.
- Concurrency machinery: goroutines, the mutex, the wait group, the ticker's timing, `time.After` and the 100 ms sleep in `Close`. The `select` becomes one method per event, and a schedule chooses among ready events.
- Writer.BatchWriter.Write: the 100 ms timeout is modelled as a full channel. A send on an unbuffered channel succeeds exactly while the loop runs, received at once. A send that a concurrently running loop would have drained in time is not modelled.
- The result of the background `flushBatch` goroutines is discarded by the source. The model records each dispatched batch, not its database outcome.
- Writer.PriorityWriter.WriteBatch: the lane errors are reported in the fixed order high, medium, low. The source's error list order depends on goroutine scheduling, and its wrapped message text is not modelled.
- CompressedWriter and its `compressData` (gzip and JSON) are not part of this model.
- Floating-point values are modelled as reals. The alert threshold is a comparison on reals. The alert message text with its `%.2f` formatting is not modelled.
- `GenerateRandomPayload` beyond its size clamp is not part of this model: the JSON marshalling, the padding step, `generateRandomString`, `generateSequence` and `generateMetadata`. Randomness is an input byte sequence.
- Payload.GenerateRandomInts: the negation branch only matters with a 32-bit `int`. The model uses unbounded integers, as on 64-bit targets.
- String lengths count characters. Go's `len` counts UTF-8 bytes; the two agree on the ASCII patterns used.
- Writer.PriorityWriter.constructor: `batchSize*10` and `batchSize*2` are unbounded. Go int overflow for huge batch sizes is not modelled. A negative batch size panics in Go and is excluded by the precondition.
- The read query's ordering by timestamp is inside the `Store` oracle.
- The statistics queries, schema creation, configuration loading and the server in main.go are not part of this model.
- The SQL query that getSensorDataHandler builds after validation is not part of this model. The model stops at the validated `Query`.
- A batch with no processed items encodes `results` as JSON null in the source. The model returns an empty list.

=== FILE: base64.dfy ===
/**
 * The standard base64 alphabet with padding (section 4 of RFC 4648), as Go's
 * base64.StdEncoding applies it: EncodeToString, and a DecodeString that skips
 * carriage returns and line feeds anywhere, requires full padding, and ignores
 * the unused low bits of the final quantum (the encoding is not Strict).
 */
module Base64 {
  import opened Wrappers

  newtype byte = x: int | 0 <= x < 256

  /** The character of a 6-bit value: A-Z, a-z, 0-9, '+', '/'. */
  function CharOf(v: int): (c: char)
    requires 0 <= v < 64
    ensures IsAlphabet(c) && ValueOf(c) == v
  {
    if v < 26 then ('A' as int + v) as char
    else if v < 52 then ('a' as int + v - 26) as char
    else if v < 62 then ('0' as int + v - 52) as char
    else if v == 62 then '+'
    else '/'
  }

  predicate IsAlphabet(c: char) {
    ('A' <= c <= 'Z') || ('a' <= c <= 'z') || ('0' <= c <= '9') || c == '+' || c == '/'
  }

  /** The 6-bit value of an alphabet character. */
  function ValueOf(c: char): (v: int)
    requires IsAlphabet(c)
    ensures 0 <= v < 64
  {
    if 'A' <= c <= 'Z' then c as int - 'A' as int
    else if 'a' <= c <= 'z' then c as int - 'a' as int + 26
    else if '0' <= c <= '9' then c as int - '0' as int + 52
    else if c == '+' then 62
    else 63
  }

  lemma CharOfValueOf(c: char)
    requires IsAlphabet(c)
    ensures CharOf(ValueOf(c)) == c
  {
  }

  /** Three bytes as four characters. */
  function EncodeQuantum(b0: byte, b1: byte, b2: byte): string {
    [CharOf(b0 as int / 4),
     CharOf((b0 as int % 4) * 16 + b1 as int / 16),
     CharOf((b1 as int % 16) * 4 + b2 as int / 64),
     CharOf(b2 as int % 64)]
  }

  /** EncodeToString: whole quanta, then one or two '=' for a final group of two or one bytes. */
  function Encode(b: seq<byte>): (s: string)
    ensures |s| == 4 * ((|b| + 2) / 3)
    ensures forall i :: 0 <= i < |s| ==> IsAlphabet(s[i]) || s[i] == '='
    decreases |b|
  {
    if |b| == 0 then ""
    else if |b| == 1 then
      [CharOf(b[0] as int / 4), CharOf((b[0] as int % 4) * 16), '=', '=']
    else if |b| == 2 then
      [CharOf(b[0] as int / 4), CharOf((b[0] as int % 4) * 16 + b[1] as int / 16),
       CharOf((b[1] as int % 16) * 4), '=']
    else
      EncodeQuantum(b[0], b[1], b[2]) + Encode(b[3..])
  }

  /** The input with every '\r' and '\n' removed, which the decoder skips wherever they occur. */
  function StripNewlines(s: string): (t: string)
    ensures |t| <= |s|
    ensures forall i :: 0 <= i < |t| ==> t[i] != '\n' && t[i] != '\r'
    ensures forall c :: c != '\n' && c != '\r' ==> multiset(t)[c] == multiset(s)[c]
  {
    if s == [] then []
    else
      assert s == [s[0]] + s[1..];
      if s[0] == '\n' || s[0] == '\r' then StripNewlines(s[1..])
      else [s[0]] + StripNewlines(s[1..])
  }

  function Byte0(c0: char, c1: char): byte
    requires IsAlphabet(c0) && IsAlphabet(c1)
  {
    (ValueOf(c0) * 4 + ValueOf(c1) / 16) as byte
  }

  function Byte1(c1: char, c2: char): byte
    requires IsAlphabet(c1) && IsAlphabet(c2)
  {
    ((ValueOf(c1) % 16) * 16 + ValueOf(c2) / 4) as byte
  }

  function Byte2(c2: char, c3: char): byte
    requires IsAlphabet(c2) && IsAlphabet(c3)
  {
    ((ValueOf(c2) % 4) * 64 + ValueOf(c3)) as byte
  }

  /**
   * Decoding of text without line breaks: quanta of four alphabet characters; only
   * the last quantum may end in "==" (one byte) or "=" (two bytes); anything else,
   * including a length that is not a multiple of four, is corrupt input.
   */
  function DecodeQuanta(t: string): (r: Option<seq<byte>>)
    ensures r.Some? ==> |t| % 4 == 0 && 3 * (|t| / 4) - 2 <= |r.value| <= 3 * (|t| / 4)
    decreases |t|
  {
    if t == [] then Some([])
    else if |t| < 4 then None
    else if IsAlphabet(t[0]) && IsAlphabet(t[1]) && IsAlphabet(t[2]) && IsAlphabet(t[3]) then
      match DecodeQuanta(t[4..])
      case None => None
      case Some(rest) => Some([Byte0(t[0], t[1]), Byte1(t[1], t[2]), Byte2(t[2], t[3])] + rest)
    else if |t| == 4 && IsAlphabet(t[0]) && IsAlphabet(t[1]) && t[2] == '=' && t[3] == '=' then
      Some([Byte0(t[0], t[1])])
    else if |t| == 4 && IsAlphabet(t[0]) && IsAlphabet(t[1]) && IsAlphabet(t[2]) && t[3] == '=' then
      Some([Byte0(t[0], t[1]), Byte1(t[1], t[2])])
    else None
  }

  /** DecodeString: the decoded bytes, or None for corrupt input. */
  function Decode(s: string): Option<seq<byte>> {
    DecodeQuanta(StripNewlines(s))
  }

  lemma {:induction false} StripWithoutNewlines(s: string)
    requires forall i :: 0 <= i < |s| ==> s[i] != '\n' && s[i] != '\r'
    ensures StripNewlines(s) == s
    decreases |s|
  {
    if s != [] {
      StripWithoutNewlines(s[1..]);
    }
  }

  /** The three bytes of a quantum come back from its four characters. */
  lemma QuantumRoundTrip(b0: byte, b1: byte, b2: byte)
    ensures var q := EncodeQuantum(b0, b1, b2);
      Byte0(q[0], q[1]) == b0 && Byte1(q[1], q[2]) == b1 && Byte2(q[2], q[3]) == b2
  {
  }

  /** A final group of one byte decodes from its "xx==" quantum. */
  lemma DecodeOne(b: seq<byte>)
    requires |b| == 1
    ensures DecodeQuanta(Encode(b)) == Some(b)
  {
    var s := Encode(b);
    assert Byte0(s[0], s[1]) == b[0] && !IsAlphabet(s[2]);
    assert [b[0]] == b;
  }

  /** A final group of two bytes decodes from its "xxx=" quantum. */
  lemma DecodeTwo(b: seq<byte>)
    requires |b| == 2
    ensures DecodeQuanta(Encode(b)) == Some(b)
  {
    var s := Encode(b);
    assert Byte0(s[0], s[1]) == b[0] && Byte1(s[1], s[2]) == b[1] && !IsAlphabet(s[3]);
    assert [b[0], b[1]] == b;
  }

  lemma {:induction false} DecodeQuantaEncode(b: seq<byte>)
    ensures DecodeQuanta(Encode(b)) == Some(b)
    decreases |b|
  {
    if |b| == 1 {
      DecodeOne(b);
    } else if |b| == 2 {
      DecodeTwo(b);
    } else if |b| >= 3 {
      DecodeQuantaEncode(b[3..]);
      DecodeFullQuantum(b);
    }
  }

  /** A leading group of three bytes decodes from its quantum, given that the rest round-trips. */
  lemma DecodeFullQuantum(b: seq<byte>)
    requires |b| >= 3 && DecodeQuanta(Encode(b[3..])) == Some(b[3..])
    ensures DecodeQuanta(Encode(b)) == Some(b)
  {
    var q := EncodeQuantum(b[0], b[1], b[2]);
    var rest := Encode(b[3..]);
    assert Encode(b) == q + rest;
    DecodeQuantaCons(q, rest);
    QuantumRoundTrip(b[0], b[1], b[2]);
    SplitThree(b);
  }

  lemma SplitThree<T>(b: seq<T>)
    requires |b| >= 3
    ensures [b[0], b[1], b[2]] + b[3..] == b
  {
    assert b == b[..3] + b[3..];
  }

  /** A full quantum in front of decodable text decodes to its three bytes in front. */
  lemma DecodeQuantaCons(q: string, rest: string)
    requires |q| == 4 && IsAlphabet(q[0]) && IsAlphabet(q[1]) && IsAlphabet(q[2]) && IsAlphabet(q[3])
    requires DecodeQuanta(rest).Some?
    ensures DecodeQuanta(q + rest) ==
            Some([Byte0(q[0], q[1]), Byte1(q[1], q[2]), Byte2(q[2], q[3])] + DecodeQuanta(rest).value)
  {
    var t := q + rest;
    assert t[0] == q[0] && t[1] == q[1] && t[2] == q[2] && t[3] == q[3];
    assert t[4..] == rest;
  }

  /** Decoding what the encoder produced gives back the original bytes. */
  lemma DecodeEncode(b: seq<byte>)
    ensures Decode(Encode(b)) == Some(b)
  {
    StripWithoutNewlines(Encode(b));
    DecodeQuantaEncode(b);
  }
}

=== FILE: database.dfy ===
/**
 * The sensor record and the two insert paths of database.go, run against an
 * abstract store. The store is a value that says which of the database calls
 * succeed; RFC 3339 parsing is a parameter, since the model does not interpret it.
 */
module Database {
  import opened Wrappers

  /** One sensor observation (SensorData). `value` is a float64 in the source. */
  datatype SensorData = SensorData(
    timestamp: string,
    deviceId: string,
    metricName: string,
    value: real,
    priority: int,
    data: string)

  /** The priority convention carried by a record: 1 is high, 2 medium, 3 low. */
  datatype Priority = High | Medium | Low

  /** The integer a record stores for each priority class. */
  function Code(p: Priority): (c: int)
    ensures 1 <= c <= 3
    ensures p == High <==> c == 1
    ensures p == Low <==> c == 3
  {
    match p
    case High => 1
    case Medium => 2
    case Low => 3
  }

  /**
   * Go's time.Parse with the RFC 3339 layout (section 5.6 of RFC 3339), left
   * uninterpreted: the instant in nanoseconds, or None when the text does not parse.
   */
  type TimeParser = string -> Option<int>

  predicate ValidTimestamp(parse: TimeParser, s: string) {
    parse(s).Some?
  }

  /** What the "latest value of this device's metric" query returns. */
  datatype ReadOutcome = ReadFailed | NoRows | Latest(value: real, priority: int)

  /**
   * The database as the core sees it: whether a transaction can begin, whether the
   * INSERT statement can be prepared, whether a commit succeeds, which rows an
   * INSERT accepts, what the read query answers and whether the device-status
   * upsert succeeds. The read query is asked for a device and metric together with
   * the rows the same transaction has already inserted, which it may see.
   */
  datatype Store = Store(
    beginOk: bool,
    prepareOk: bool,
    commitOk: bool,
    insertOk: SensorData -> bool,
    read: (string, string, seq<SensorData>) -> ReadOutcome,
    statusOk: string -> bool)

  datatype Error =
    | BeginFailed
    | PrepareFailed
    | InvalidTimestamp
    | InsertFailed
    | CommitFailed
    | WriteTimeout
    | LaneErrors(lanes: seq<Priority>)

  datatype Outcome = Ok | Err(error: Error)

  /**
   * What one insert call did: its returned error, whether it called Begin (which may have failed),
   * the rows whose INSERT succeeded (in execution order) and the rows that the
   * store holds durably afterwards because of this call.
   */
  datatype TxResult = TxResult(
    outcome: Outcome,
    beginCalled: bool,
    executed: seq<SensorData>,
    committed: seq<SensorData>)

  /** A row that InsertSensorDataBatch accepts: its timestamp parses and its INSERT succeeds. */
  predicate Insertable(store: Store, parse: TimeParser, r: SensorData) {
    ValidTimestamp(parse, r.timestamp) && store.insertOk(r)
  }

  /**
   * InsertSensorData: a single autocommitted INSERT. An unparseable timestamp is
   * rejected before the statement runs.
   */
  function InsertSensorData(store: Store, parse: TimeParser, data: SensorData): (r: TxResult)
    ensures !r.beginCalled
    ensures !ValidTimestamp(parse, data.timestamp) ==> r.outcome == Err(InvalidTimestamp) && r.executed == []
    ensures r.outcome == Ok <==> Insertable(store, parse, data)
    ensures r.committed == (if r.outcome == Ok then [data] else [])
    ensures r.outcome == Ok || r.outcome == Err(InvalidTimestamp) || r.outcome == Err(InsertFailed)
  {
    if !ValidTimestamp(parse, data.timestamp) then TxResult(Err(InvalidTimestamp), false, [], [])
    else if !store.insertOk(data) then TxResult(Err(InsertFailed), false, [], [])
    else TxResult(Ok, false, [data], [data])
  }

  /** The index of the first row that InsertSensorDataBatch cannot insert, or |rows|. */
  function FirstBad(store: Store, parse: TimeParser, rows: seq<SensorData>): (k: nat)
    ensures k <= |rows|
    ensures forall j :: 0 <= j < k ==> Insertable(store, parse, rows[j])
    ensures k < |rows| ==> !Insertable(store, parse, rows[k])
    decreases |rows|
  {
    if rows == [] || !Insertable(store, parse, rows[0]) then 0
    else 1 + FirstBad(store, parse, rows[1..])
  }

  /**
   * The effect of InsertSensorDataBatch: one transaction, every row executed in
   * input order, the first bad timestamp or failed INSERT aborting the whole batch
   * (the deferred rollback discards what ran), commit only after every row ran.
   */
  function InsertBatchSpec(store: Store, parse: TimeParser, rows: seq<SensorData>): (r: TxResult)
    ensures r.beginCalled <==> rows != []
    ensures r.outcome == Ok <==>
              rows == [] ||
              (store.beginOk && store.prepareOk && store.commitOk &&
               forall j :: 0 <= j < |rows| ==> Insertable(store, parse, rows[j]))
    ensures r.committed == (if r.outcome == Ok then rows else [])
    ensures |r.executed| <= |rows| && r.executed == rows[..|r.executed|]
    ensures forall j :: 0 <= j < |r.executed| ==> Insertable(store, parse, r.executed[j])
    ensures r.outcome == Err(InvalidTimestamp) ==>
              |r.executed| < |rows| && !ValidTimestamp(parse, rows[|r.executed|].timestamp)
    ensures r.outcome == Err(InsertFailed) ==>
              |r.executed| < |rows| && ValidTimestamp(parse, rows[|r.executed|].timestamp) &&
              !store.insertOk(rows[|r.executed|])
    ensures r.outcome == Err(CommitFailed) ==> r.executed == rows
  {
    if rows == [] then TxResult(Ok, false, [], [])
    else if !store.beginOk then TxResult(Err(BeginFailed), true, [], [])
    else if !store.prepareOk then TxResult(Err(PrepareFailed), true, [], [])
    else
      var k := FirstBad(store, parse, rows);
      if k < |rows| then
        var e := if ValidTimestamp(parse, rows[k].timestamp) then InsertFailed else InvalidTimestamp;
        TxResult(Err(e), true, rows[..k], [])
      else if !store.commitOk then TxResult(Err(CommitFailed), true, rows, [])
      else TxResult(Ok, true, rows, rows)
  }

  /** InsertSensorDataBatch: the loop over the records inside one transaction. */
  method InsertSensorDataBatch(store: Store, parse: TimeParser, data: seq<SensorData>) returns (res: TxResult)
    ensures res == InsertBatchSpec(store, parse, data)
  {
    if |data| == 0 {
      return TxResult(Ok, false, [], []);
    }
    if !store.beginOk {
      return TxResult(Err(BeginFailed), true, [], []);
    }
    if !store.prepareOk {
      return TxResult(Err(PrepareFailed), true, [], []);
    }
    var i := 0;
    while i < |data|
      invariant 0 <= i <= |data|
      invariant forall j :: 0 <= j < i ==> Insertable(store, parse, data[j])
    {
      if !ValidTimestamp(parse, data[i].timestamp) {
        return TxResult(Err(InvalidTimestamp), true, data[..i], []);
      }
      if !store.insertOk(data[i]) {
        return TxResult(Err(InsertFailed), true, data[..i], []);
      }
      i := i + 1;
    }
    if !store.commitOk {
      return TxResult(Err(CommitFailed), true, data, []);
    }
    return TxResult(Ok, true, data, data);
  }
}

=== FILE: handlers.dfy ===
/**
 * The request rules of the HTTP handlers in handlers.go, over request bodies that
 * have already been read and JSON-decoded. Each handler is a function (or, for the
 * batch handler's item loop, a method) from the request and the store to the reply
 * it writes and what it leaves in the database. Error replies carry the status code
 * and the text the source passes to http.Error.
 */
module Handlers {
  import opened Wrappers
  import opened Database
  import Writer

  /** The result of reading and decoding a request body. */
  datatype Body<T> = Unreadable | Malformed | Decoded(value: T)

  /** A read-write request, and one item of a batch read-write request. */
  datatype Reading = Reading(
    deviceId: string,
    metricName: string,
    newValue: real,
    timestamp: string,
    priority: int,
    data: string)

  /** The fields a read-write handler reports for one processed reading. */
  datatype Entry = Entry(
    deviceId: string,
    metricName: string,
    previousValue: real,
    newValue: real,
    priority: int,
    timestamp: string,
    alert: bool)

  /** One device_status upsert: the device, its latest value and the alert increment. */
  datatype StatusWrite = StatusWrite(deviceId: string, currentValue: real, alertCount: int)

  datatype Reply =
    | HttpError(status: int, message: string)
    | Inserted
    | ReadWriteDone(entry: Entry)
    | BatchDone(totalProcessed: int, totalAlerts: int, results: seq<Entry>)

  /** A handler's reply, the rows it committed and the status upserts it committed. */
  datatype Handled = Handled(reply: Reply, committed: seq<SensorData>, statusWrites: seq<StatusWrite>)

  const AlertThreshold: real := 100.0
  const DefaultPriority := 2
  const MaxBatchItems := 1000
  const DefaultLimit := 1000
  const MaxLimit := 10000

  const MethodNotAllowed := HttpError(405, "Only POST method allowed")
  const MissingFields := HttpError(400, "Missing required fields")
  const DatabaseError := HttpError(500, "Database error")
  const BadTimestamp := HttpError(400, "Invalid timestamp format")

  function BodyError<T>(body: Body<T>): Reply
  {
    if body.Unreadable? then HttpError(400, "Failed to read request body")
    else HttpError(400, "Invalid JSON format")
  }

  /** A reply that ends the request with nothing written. */
  function Rejected(reply: Reply): Handled
  {
    Handled(reply, [], [])
  }

  /** Every handler sends a priority outside 1..3 to the medium class. */
  function NormalisePriority(priority: int): (p: int)
    ensures 1 <= p <= 3
    ensures p == priority <==> 1 <= priority <= 3
    ensures p != priority ==> p == DefaultPriority
  {
    if priority < 1 || priority > 3 then DefaultPriority else priority
  }

  /** Normalising first does not change the lane the priority writer would choose. */
  lemma NormalisedRouting(priority: int)
    ensures Writer.LaneOf(NormalisePriority(priority)) == Writer.LaneOf(priority)
    ensures NormalisePriority(NormalisePriority(priority)) == NormalisePriority(priority)
  {
  }

  predicate HasRequiredFields(deviceId: string, metricName: string, timestamp: string)
  {
    deviceId != "" && metricName != "" && timestamp != ""
  }

  predicate IsAlert(value: real)
  {
    value > AlertThreshold
  }

  /** The priority a reading is stored with: an alert forces 1. */
  function EffectivePriority(r: Reading): int
  {
    if IsAlert(r.newValue) then 1 else NormalisePriority(r.priority)
  }

  /** The row a reading inserts into time_series_data. */
  function RowOf(r: Reading): SensorData
  {
    SensorData(r.timestamp, r.deviceId, r.metricName, r.newValue, EffectivePriority(r), r.data)
  }

  /** The value reported as previous: the latest stored one, or 0 when there is none. */
  function PreviousValue(current: ReadOutcome): real
  {
    if current.Latest? then current.value else 0.0
  }

  function EntryOf(r: Reading, previous: real): Entry
  {
    Entry(r.deviceId, r.metricName, previous, r.newValue, EffectivePriority(r), r.timestamp, IsAlert(r.newValue))
  }

  function StatusOf(r: Reading): StatusWrite
  {
    StatusWrite(r.deviceId, r.newValue, if IsAlert(r.newValue) then 1 else 0)
  }

  /** The status upserts that a processed reading leaves: one, unless the upsert failed. */
  function StatusWritesOf(store: Store, r: Reading): seq<StatusWrite>
  {
    if store.statusOk(r.deviceId) then [StatusOf(r)] else []
  }

  /** What every reported entry satisfies: alert exactly above the threshold, and then priority 1. */
  predicate WellFormed(e: Entry)
  {
    1 <= e.priority <= 3 &&
    (e.alert <==> e.newValue > AlertThreshold) &&
    (e.alert ==> e.priority == 1)
  }

  /** The row and the entry of a processed reading agree field by field. */
  predicate Matches(e: Entry, row: SensorData)
  {
    e.deviceId == row.deviceId && e.metricName == row.metricName &&
    e.newValue == row.value && e.priority == row.priority && e.timestamp == row.timestamp
  }

  /** The device_status upsert of an entry carries its value and an increment of 1 exactly on alert. */
  predicate StatusMatches(w: StatusWrite, e: Entry)
  {
    w.deviceId == e.deviceId && w.currentValue == e.newValue &&
    w.alertCount == (if e.alert then 1 else 0)
  }

  /**
   * sensorDataHandler: checks the method and the required fields, normalises the
   * priority and stores the record through InsertSensorData.
   */
  function HandleSensorData(store: Store, parse: TimeParser, verb: string, body: Body<SensorData>): (h: Handled)
    ensures h.reply == Inserted <==>
              verb == "POST" && body.Decoded? &&
              HasRequiredFields(body.value.deviceId, body.value.metricName, body.value.timestamp) &&
              Insertable(store, parse, body.value.(priority := NormalisePriority(body.value.priority)))
    ensures h.reply == Inserted ==>
              h.committed == [body.value.(priority := NormalisePriority(body.value.priority))] &&
              1 <= h.committed[0].priority <= 3
    ensures h.reply != Inserted ==> h.reply.HttpError? && h.committed == []
    ensures h.statusWrites == []
    ensures verb != "POST" ==> h.reply == MethodNotAllowed
    ensures (verb == "POST" && body.Decoded? &&
             !HasRequiredFields(body.value.deviceId, body.value.metricName, body.value.timestamp)) ==>
              h.reply == MissingFields
    // The single-record path reports an unparseable timestamp as a database error.
    ensures (verb == "POST" && body.Decoded? &&
             HasRequiredFields(body.value.deviceId, body.value.metricName, body.value.timestamp) &&
             !ValidTimestamp(parse, body.value.timestamp)) ==> h.reply == DatabaseError
  {
    if verb != "POST" then Rejected(MethodNotAllowed)
    else if !body.Decoded? then Rejected(BodyError(body))
    else
      var d := body.value;
      if !HasRequiredFields(d.deviceId, d.metricName, d.timestamp) then Rejected(MissingFields)
      else
        var tx := InsertSensorData(store, parse, d.(priority := NormalisePriority(d.priority)));
        if tx.outcome == Ok then Handled(Inserted, tx.committed, [])
        else Rejected(DatabaseError)
  }

  /**
   * sensorReadWriteHandler: in one transaction, reads the latest value of the
   * device's metric, raises an alert above the threshold, inserts the new reading,
   * upserts the device status (ignoring its failure) and commits.
   */
  function HandleReadWrite(store: Store, parse: TimeParser, verb: string, body: Body<Reading>): (h: Handled)
    ensures h.reply.ReadWriteDone? <==>
              verb == "POST" && body.Decoded? &&
              HasRequiredFields(body.value.deviceId, body.value.metricName, body.value.timestamp) &&
              store.beginOk && !store.read(body.value.deviceId, body.value.metricName, []).ReadFailed? &&
              ValidTimestamp(parse, body.value.timestamp) && store.insertOk(RowOf(body.value)) &&
              store.commitOk
    ensures h.reply.ReadWriteDone? ==>
              var r := body.value;
              h.committed == [RowOf(r)] && Matches(h.reply.entry, h.committed[0]) &&
              WellFormed(h.reply.entry) && h.reply.entry.newValue == r.newValue &&
              h.reply.entry.previousValue ==
                (match store.read(r.deviceId, r.metricName, [])
                 case Latest(v, _) => v
                 case _ => 0.0) &&
              h.statusWrites == (if store.statusOk(r.deviceId) then [StatusOf(r)] else []) &&
              forall w :: w in h.statusWrites ==> StatusMatches(w, h.reply.entry)
    ensures !h.reply.ReadWriteDone? ==>
              h.reply.HttpError? && h.reply.status in {400, 405, 500} && h.committed == [] && h.statusWrites == []
    ensures (verb == "POST" && body.Decoded? &&
             HasRequiredFields(body.value.deviceId, body.value.metricName, body.value.timestamp) &&
             store.beginOk && !store.read(body.value.deviceId, body.value.metricName, []).ReadFailed? &&
             !ValidTimestamp(parse, body.value.timestamp)) ==> h.reply == BadTimestamp
  {
    if verb != "POST" then Rejected(MethodNotAllowed)
    else if !body.Decoded? then Rejected(BodyError(body))
    else
      var r := body.value;
      if !HasRequiredFields(r.deviceId, r.metricName, r.timestamp) then Rejected(MissingFields)
      else if !store.beginOk then Rejected(DatabaseError)
      else
        var current := store.read(r.deviceId, r.metricName, []);
        if current.ReadFailed? then Rejected(DatabaseError)
        else if !ValidTimestamp(parse, r.timestamp) then Rejected(BadTimestamp)
        else if !store.insertOk(RowOf(r)) then Rejected(DatabaseError)
        else if !store.commitOk then Rejected(DatabaseError)
        else Handled(ReadWriteDone(EntryOf(r, PreviousValue(current))), [RowOf(r)], StatusWritesOf(store, r))
  }

  /** A failing device-status upsert does not change the reply or the committed rows. */
  lemma StatusFailureIgnored(store: Store, parse: TimeParser, verb: string, body: Body<Reading>)
    ensures var failing := store.(statusOk := (d: string) => false);
            HandleReadWrite(failing, parse, verb, body).reply == HandleReadWrite(store, parse, verb, body).reply &&
            HandleReadWrite(failing, parse, verb, body).committed == HandleReadWrite(store, parse, verb, body).committed &&
            HandleReadWrite(failing, parse, verb, body).statusWrites == []
  {
  }

  /** What the batch handler's loop has accumulated so far. */
  datatype BatchState = BatchState(
    results: seq<Entry>,
    inserted: seq<SensorData>,
    statusWrites: seq<StatusWrite>,
    totalAlerts: nat)

  /**
   * One iteration of the item loop. An item without the required fields or whose
   * read fails is skipped; an alert is counted before the timestamp is parsed and
   * the row inserted, so an item dropped at those steps still counts.
   */
  function Step(store: Store, parse: TimeParser, s: BatchState, item: Reading): BatchState
  {
    if !HasRequiredFields(item.deviceId, item.metricName, item.timestamp) then s
    else
      var current := store.read(item.deviceId, item.metricName, s.inserted);
      if current.ReadFailed? then s
      else
        var alerts := s.totalAlerts + (if IsAlert(item.newValue) then 1 else 0);
        if !ValidTimestamp(parse, item.timestamp) || !store.insertOk(RowOf(item)) then s.(totalAlerts := alerts)
        else
          BatchState(
            s.results + [EntryOf(item, PreviousValue(current))],
            s.inserted + [RowOf(item)],
            s.statusWrites + StatusWritesOf(store, item),
            alerts)
  }

  /** The loop over all items, from an empty state. */
  function Process(store: Store, parse: TimeParser, items: seq<Reading>): BatchState
  {
    if items == [] then BatchState([], [], [], 0)
    else Step(store, parse, Process(store, parse, items[..|items| - 1]), items[|items| - 1])
  }

  /** batchSensorReadWriteHandler: the size bounds, one transaction, the item loop and the commit. */
  function BatchSpec(store: Store, parse: TimeParser, verb: string, body: Body<seq<Reading>>): Handled
  {
    if verb != "POST" then Rejected(MethodNotAllowed)
    else if !body.Decoded? then Rejected(BodyError(body))
    else if |body.value| == 0 then Rejected(HttpError(400, "Empty data list"))
    else if |body.value| > MaxBatchItems then Rejected(HttpError(400, "Too many records (max 1000)"))
    else if !store.beginOk then Rejected(DatabaseError)
    else
      var s := Process(store, parse, body.value);
      if !store.commitOk then Rejected(DatabaseError)
      else Handled(BatchDone(|s.results|, s.totalAlerts, s.results), s.inserted, s.statusWrites)
  }

  /** The number of entries that carry an alert. */
  function CountAlerts(results: seq<Entry>): (n: nat)
    ensures n <= |results|
    ensures n == 0 <==> forall k :: 0 <= k < |results| ==> !results[k].alert
    ensures n == |results| <==> forall k :: 0 <= k < |results| ==> results[k].alert
  {
    if results == [] then 0
    else CountAlerts(results[..|results| - 1]) + (if results[|results| - 1].alert then 1 else 0)
  }

  /** The number of items over the alert threshold. */
  function CountOver(items: seq<Reading>): (n: nat)
    ensures n <= |items|
    ensures n == 0 <==> forall k :: 0 <= k < |items| ==> !IsAlert(items[k].newValue)
    ensures n == |items| <==> forall k :: 0 <= k < |items| ==> IsAlert(items[k].newValue)
  {
    if items == [] then 0
    else CountOver(items[..|items| - 1]) + (if IsAlert(items[|items| - 1].newValue) then 1 else 0)
  }

  /**
   * Each entry comes from an item that had its fields, was read, parsed and
   * inserted: entries and inserted rows correspond one to one, in item order; every
   * entry is well formed; every upsert belongs to an inserted row.
   */
  lemma {:induction false} ProcessShape(store: Store, parse: TimeParser, items: seq<Reading>)
    ensures var s := Process(store, parse, items);
            |s.results| == |s.inserted| <= |items| && |s.statusWrites| <= |s.inserted|
    ensures var s := Process(store, parse, items);
            forall k :: 0 <= k < |s.results| ==> WellFormed(s.results[k]) && Matches(s.results[k], s.inserted[k])
    ensures var s := Process(store, parse, items);
            forall k :: 0 <= k < |s.inserted| ==>
              Insertable(store, parse, s.inserted[k]) &&
              HasRequiredFields(s.inserted[k].deviceId, s.inserted[k].metricName, s.inserted[k].timestamp)
  {
    if items != [] {
      ProcessShape(store, parse, items[..|items| - 1]);
    }
  }

  /** One item adds at most one alert to total_alerts, and at least the one it reports. */
  lemma StepAlerts(store: Store, parse: TimeParser, s: BatchState, item: Reading)
    ensures var t := Step(store, parse, s, item);
            CountAlerts(t.results) - CountAlerts(s.results) <= t.totalAlerts - s.totalAlerts <=
            (if IsAlert(item.newValue) then 1 else 0)
  {
    var t := Step(store, parse, s, item);
    if t.results != s.results {
      assert t.results[..|t.results| - 1] == s.results;
    }
  }

  /**
   * total_alerts counts at least the alerts in the results and at most the items
   * above the threshold.
   */
  lemma {:induction false} AlertBounds(store: Store, parse: TimeParser, items: seq<Reading>)
    ensures var s := Process(store, parse, items);
            CountAlerts(s.results) <= s.totalAlerts <= CountOver(items)
  {
    if items != [] {
      var init, last := items[..|items| - 1], items[|items| - 1];
      var s := Process(store, parse, init);
      assert CountAlerts(s.results) <= s.totalAlerts <= CountOver(init) by {
        AlertBounds(store, parse, init);
      }
      StepAlerts(store, parse, s, last);
    }
  }

  /** The two kinds of item the batch reply accounts for. */
  datatype Selector = Stored | CountedAlert

  /**
   * An item reaches the alert check when it has its fields and its read succeeds;
   * the read sees the rows the items before it inserted.
   */
  predicate Reached(store: Store, parse: TimeParser, before: seq<Reading>, item: Reading)
  {
    HasRequiredFields(item.deviceId, item.metricName, item.timestamp) &&
    !store.read(item.deviceId, item.metricName, Process(store, parse, before).inserted).ReadFailed?
  }

  /** Stored: reached, parsed and inserted. CountedAlert: reached and above the threshold. */
  predicate Selected(store: Store, parse: TimeParser, sel: Selector, before: seq<Reading>, item: Reading)
  {
    Reached(store, parse, before, item) &&
    match sel
    case Stored => ValidTimestamp(parse, item.timestamp) && store.insertOk(RowOf(item))
    case CountedAlert => IsAlert(item.newValue)
  }

  /** The positions j of `items` for which `f(items[..j], items[j])` holds, in increasing order. */
  function IndicesWhere<T>(items: seq<T>, f: (seq<T>, T) -> bool): seq<nat>
  {
    if items == [] then []
    else
      var n := |items| - 1;
      IndicesWhere(items[..n], f) + (if f(items[..n], items[n]) then [n] else [])
  }

  /** The listed positions are exactly those where `f` holds, each once, in increasing order. */
  lemma {:induction false} IndicesExact<T>(items: seq<T>, f: (seq<T>, T) -> bool)
    ensures var p := IndicesWhere(items, f);
            forall k :: 0 <= k < |p| ==> p[k] < |items|
    ensures var p := IndicesWhere(items, f);
            forall a, b :: 0 <= a < b < |p| ==> p[a] < p[b]
    ensures var p := IndicesWhere(items, f);
            forall j :: 0 <= j < |items| ==> (j in p <==> f(items[..j], items[j]))
  {
    if items != [] {
      var n := |items| - 1;
      var init := items[..n];
      var q := IndicesWhere(init, f);
      assert (forall k :: 0 <= k < |q| ==> q[k] < n) &&
             (forall a, b :: 0 <= a < b < |q| ==> q[a] < q[b]) &&
             (forall j :: 0 <= j < n ==> (j in q <==> f(init[..j], init[j]))) by {
        IndicesExact(init, f);
      }
      forall j | 0 <= j < n
        ensures init[..j] == items[..j] && init[j] == items[j]
      {
      }
    }
  }

  /** The positions of the items that `sel` selects. */
  function SelectedIndices(store: Store, parse: TimeParser, sel: Selector, items: seq<Reading>): seq<nat>
  {
    IndicesWhere(items, (before: seq<Reading>, item: Reading) => Selected(store, parse, sel, before, item))
  }

  /** The selected positions are exactly the positions whose item is selected, each once, in increasing order. */
  lemma SelectedExact(store: Store, parse: TimeParser, sel: Selector, items: seq<Reading>)
    ensures var p := SelectedIndices(store, parse, sel, items);
            forall k :: 0 <= k < |p| ==> p[k] < |items|
    ensures var p := SelectedIndices(store, parse, sel, items);
            forall a, b :: 0 <= a < b < |p| ==> p[a] < p[b]
    ensures var p := SelectedIndices(store, parse, sel, items);
            forall j :: 0 <= j < |items| ==> (j in p <==> Selected(store, parse, sel, items[..j], items[j]))
  {
    IndicesExact(items, (before: seq<Reading>, item: Reading) => Selected(store, parse, sel, before, item));
  }

  /** The last item extends the selected positions exactly when it is selected. */
  lemma SelectedSnoc(store: Store, parse: TimeParser, sel: Selector, items: seq<Reading>)
    requires items != []
    ensures var n := |items| - 1;
            SelectedIndices(store, parse, sel, items) ==
              SelectedIndices(store, parse, sel, items[..n]) +
              (if Selected(store, parse, sel, items[..n], items[n]) then [n] else [])
  {
  }

  /**
   * The batch loop, characterised: the inserted rows and the entries are those of
   * exactly the stored items, in item order, each entry reporting the value its read
   * returned given the rows inserted before it; total_alerts is exactly the number
   * of items that reached the alert check above the threshold.
   */
  lemma {:induction false} ProcessExact(store: Store, parse: TimeParser, items: seq<Reading>)
    ensures var s := Process(store, parse, items);
            var p := SelectedIndices(store, parse, Stored, items);
            |s.results| == |s.inserted| == |p| &&
            forall k :: 0 <= k < |p| ==>
              p[k] < |items| && s.inserted[k] == RowOf(items[p[k]]) &&
              s.results[k] == EntryOf(items[p[k]],
                PreviousValue(store.read(items[p[k]].deviceId, items[p[k]].metricName, s.inserted[..k])))
  {
    if items != [] {
      var n := |items| - 1;
      var init, last := items[..n], items[n];
      var s0 := Process(store, parse, init);
      var p0 := SelectedIndices(store, parse, Stored, init);
      assert |s0.results| == |s0.inserted| == |p0| &&
             (forall k :: 0 <= k < |p0| ==>
               p0[k] < n && s0.inserted[k] == RowOf(init[p0[k]]) &&
               s0.results[k] == EntryOf(init[p0[k]],
                 PreviousValue(store.read(init[p0[k]].deviceId, init[p0[k]].metricName, s0.inserted[..k])))) by {
        ProcessExact(store, parse, init);
      }
      SelectedSnoc(store, parse, Stored, items);
      var s := Process(store, parse, items);
      assert s == Step(store, parse, s0, last);
      if Selected(store, parse, Stored, init, last) {
        forall k | 0 <= k < |p0|
          ensures s.inserted[..k] == s0.inserted[..k]
        {
        }
      }
    }
  }

  /** total_alerts is exactly the number of items that reached the alert check above the threshold. */
  lemma {:induction false} ProcessAlerts(store: Store, parse: TimeParser, items: seq<Reading>)
    ensures Process(store, parse, items).totalAlerts == |SelectedIndices(store, parse, CountedAlert, items)|
  {
    if items != [] {
      var n := |items| - 1;
      var s0 := Process(store, parse, items[..n]);
      assert s0.totalAlerts == |SelectedIndices(store, parse, CountedAlert, items[..n])| by {
        ProcessAlerts(store, parse, items[..n]);
      }
      SelectedSnoc(store, parse, CountedAlert, items);
    }
  }

  /** A batch in which every item is complete, readable, parseable and accepted is processed in full. */
  lemma {:induction false} CleanProcess(store: Store, parse: TimeParser, items: seq<Reading>)
    requires forall j :: 0 <= j < |items| ==>
               HasRequiredFields(items[j].deviceId, items[j].metricName, items[j].timestamp) &&
               ValidTimestamp(parse, items[j].timestamp) && store.insertOk(RowOf(items[j]))
    requires forall d, m, rows :: !store.read(d, m, rows).ReadFailed?
    ensures var s := Process(store, parse, items);
            |s.results| == |s.inserted| == |items| && s.totalAlerts == CountOver(items) &&
            forall j :: 0 <= j < |items| ==> s.inserted[j] == RowOf(items[j])
  {
    if items != [] {
      var n := |items| - 1;
      var init, last := items[..n], items[n];
      var s0 := Process(store, parse, init);
      assert |s0.results| == |s0.inserted| == n && s0.totalAlerts == CountOver(init) &&
             forall j :: 0 <= j < n ==> s0.inserted[j] == RowOf(init[j]) by {
        CleanProcess(store, parse, init);
      }
      assert !store.read(last.deviceId, last.metricName, s0.inserted).ReadFailed?;
      var s := Process(store, parse, items);
      assert s == Step(store, parse, s0, last);
      assert s.inserted == s0.inserted + [RowOf(last)];
      assert CountOver(items) == CountOver(init) + (if IsAlert(last.newValue) then 1 else 0);
    }
  }

  /** On a clean batch the reply reports every item as processed and every item above 100 as an alert. */
  lemma CleanBatch(store: Store, parse: TimeParser, items: seq<Reading>)
    requires 1 <= |items| <= MaxBatchItems && store.beginOk && store.commitOk
    requires forall j :: 0 <= j < |items| ==>
               HasRequiredFields(items[j].deviceId, items[j].metricName, items[j].timestamp) &&
               ValidTimestamp(parse, items[j].timestamp) && store.insertOk(RowOf(items[j]))
    requires forall d, m, rows :: !store.read(d, m, rows).ReadFailed?
    ensures var h := BatchSpec(store, parse, "POST", Decoded(items));
            h.reply.BatchDone? && h.reply.totalProcessed == |h.reply.results| == |items| &&
            h.reply.totalAlerts == CountOver(items) &&
            |h.committed| == |items| && forall j :: 0 <= j < |items| ==> h.committed[j] == RowOf(items[j])
  {
    CleanProcess(store, parse, items);
  }

  /**
   * An over-threshold item that reaches the alert check but whose timestamp does
   * not parse is counted in total_alerts and reported nowhere.
   */
  lemma DroppedAlertCounted(store: Store, parse: TimeParser, items: seq<Reading>, item: Reading)
    requires HasRequiredFields(item.deviceId, item.metricName, item.timestamp)
    requires !store.read(item.deviceId, item.metricName, Process(store, parse, items).inserted).ReadFailed?
    requires IsAlert(item.newValue) && !ValidTimestamp(parse, item.timestamp)
    ensures var s, t := Process(store, parse, items), Process(store, parse, items + [item]);
            t.totalAlerts == s.totalAlerts + 1 && t.results == s.results && t.inserted == s.inserted &&
            CountAlerts(t.results) < t.totalAlerts
  {
    assert (items + [item])[..|items|] == items;
    AlertBounds(store, parse, items);
  }

  /** In the batch loop a failing device-status upsert changes only the upserts recorded. */
  lemma {:induction false} ProcessStatusIgnored(store: Store, parse: TimeParser, items: seq<Reading>)
    ensures var failing := store.(statusOk := (d: string) => false);
            Process(failing, parse, items) == Process(store, parse, items).(statusWrites := [])
  {
    if items != [] {
      ProcessStatusIgnored(store, parse, items[..|items| - 1]);
    }
  }

  /** A failing device-status upsert changes neither the batch reply nor the committed rows. */
  lemma BatchStatusFailureIgnored(store: Store, parse: TimeParser, verb: string, body: Body<seq<Reading>>)
    ensures var failing := store.(statusOk := (d: string) => false);
            BatchSpec(failing, parse, verb, body).reply == BatchSpec(store, parse, verb, body).reply &&
            BatchSpec(failing, parse, verb, body).committed == BatchSpec(store, parse, verb, body).committed &&
            BatchSpec(failing, parse, verb, body).statusWrites == []
  {
    if body.Decoded? {
      ProcessStatusIgnored(store, parse, body.value);
    }
  }

  /** An item missing a required field leaves the accumulated state as it was. */
  lemma {:induction false} SkipIncomplete(store: Store, parse: TimeParser, items: seq<Reading>, item: Reading)
    requires !HasRequiredFields(item.deviceId, item.metricName, item.timestamp)
    ensures Process(store, parse, items + [item]) == Process(store, parse, items)
  {
    assert (items + [item])[..|items|] == items;
  }

  /** What the batch reply promises, for every request. */
  lemma BatchProperties(store: Store, parse: TimeParser, verb: string, body: Body<seq<Reading>>, h: Handled)
    requires h == BatchSpec(store, parse, verb, body)
    ensures body.Decoded? && verb == "POST" && (|body.value| == 0 || |body.value| > MaxBatchItems) ==>
              h.reply.HttpError? && h.reply.status == 400
    ensures h.reply.BatchDone? <==>
              verb == "POST" && body.Decoded? && 1 <= |body.value| <= MaxBatchItems && store.beginOk && store.commitOk
    ensures h.reply.BatchDone? ==>
              h.reply.totalProcessed == |h.reply.results| == |h.committed| <= |body.value| &&
              |h.statusWrites| <= |h.committed| &&
              CountAlerts(h.reply.results) <= h.reply.totalAlerts <= CountOver(body.value) &&
              forall k :: 0 <= k < |h.committed| ==>
                WellFormed(h.reply.results[k]) && Matches(h.reply.results[k], h.committed[k]) &&
                Insertable(store, parse, h.committed[k])
    ensures body.Decoded? && h.reply.BatchDone? ==>
              var p := SelectedIndices(store, parse, Stored, body.value);
              |h.committed| == |p| &&
              h.reply.totalAlerts == |SelectedIndices(store, parse, CountedAlert, body.value)| &&
              forall k :: 0 <= k < |p| ==> p[k] < |body.value| && h.committed[k] == RowOf(body.value[p[k]])
    ensures !h.reply.BatchDone? ==> h.reply.HttpError? && h.committed == [] && h.statusWrites == []
  {
    if body.Decoded? {
      ProcessShape(store, parse, body.value);
      AlertBounds(store, parse, body.value);
      ProcessExact(store, parse, body.value);
      ProcessAlerts(store, parse, body.value);
    }
  }

  /** The batch handler with its item loop. */
  method BatchReadWrite(store: Store, parse: TimeParser, verb: string, body: Body<seq<Reading>>) returns (h: Handled)
    ensures h == BatchSpec(store, parse, verb, body)
  {
    if verb != "POST" {
      return Rejected(MethodNotAllowed);
    }
    if !body.Decoded? {
      return Rejected(BodyError(body));
    }
    var items := body.value;
    if |items| == 0 {
      return Rejected(HttpError(400, "Empty data list"));
    }
    if |items| > MaxBatchItems {
      return Rejected(HttpError(400, "Too many records (max 1000)"));
    }
    if !store.beginOk {
      return Rejected(DatabaseError);
    }
    var results: seq<Entry> := [];
    var inserted: seq<SensorData> := [];
    var statusWrites: seq<StatusWrite> := [];
    var totalAlerts: nat := 0;
    var i := 0;
    while i < |items|
      invariant 0 <= i <= |items|
      invariant BatchState(results, inserted, statusWrites, totalAlerts) == Process(store, parse, items[..i])
    {
      assert items[..i + 1][..i] == items[..i];
      var item := items[i];
      i := i + 1;
      if !HasRequiredFields(item.deviceId, item.metricName, item.timestamp) {
        continue;
      }
      var priority := NormalisePriority(item.priority);
      var current := store.read(item.deviceId, item.metricName, inserted);
      if current.ReadFailed? {
        continue;
      }
      var alert := false;
      var alertCount := 0;
      if item.newValue > AlertThreshold {
        alert := true;
        priority := 1;
        alertCount := 1;
        totalAlerts := totalAlerts + 1;
      }
      if !ValidTimestamp(parse, item.timestamp) {
        continue;
      }
      var row := SensorData(item.timestamp, item.deviceId, item.metricName, item.newValue, priority, item.data);
      if !store.insertOk(row) {
        continue;
      }
      inserted := inserted + [row];
      if store.statusOk(item.deviceId) {
        statusWrites := statusWrites + [StatusWrite(item.deviceId, item.newValue, alertCount)];
      }
      var previous := if current.Latest? then current.value else 0.0;
      results := results + [Entry(item.deviceId, item.metricName, previous, item.newValue, priority, item.timestamp, alert)];
    }
    assert items[..i] == items;
    if !store.commitOk {
      return Rejected(DatabaseError);
    }
    h := Handled(BatchDone(|results|, totalAlerts, results), inserted, statusWrites);
  }

  /** The query request of getSensorDataHandler, and the query it runs. */
  datatype QueryRequest = QueryRequest(
    deviceId: string,
    metricName: string,
    startTime: string,
    endTime: string,
    limit: int,
    offset: int)

  /** `metricName` "" selects every metric of the device; times are parsed instants. */
  datatype Query = Query(deviceId: string, metricName: string, start: int, end: int, limit: int, offset: int)

  /** A limit that is not positive or above the maximum becomes the default. */
  function NormaliseLimit(limit: int): (l: int)
    ensures 1 <= l <= MaxLimit
    ensures l == limit <==> 1 <= limit <= MaxLimit
    ensures l != limit ==> l == DefaultLimit
  {
    if limit <= 0 || limit > MaxLimit then DefaultLimit else limit
  }

  /** A negative offset becomes 0. */
  function NormaliseOffset(offset: int): (o: int)
    ensures 0 <= o
    ensures o == offset <==> 0 <= offset
    ensures o != offset ==> o == 0
  {
    if offset < 0 then 0 else offset
  }

  lemma NormaliseIdempotent(limit: int, offset: int)
    ensures NormaliseLimit(NormaliseLimit(limit)) == NormaliseLimit(limit)
    ensures NormaliseOffset(NormaliseOffset(offset)) == NormaliseOffset(offset)
  {
  }

  /**
   * The checks and defaults of getSensorDataHandler before it builds the SQL: the
   * required fields, both times in RFC 3339, a start not after the end, and the
   * limit and offset defaults.
   */
  function ValidateQuery(parse: TimeParser, verb: string, body: Body<QueryRequest>): (r: Result<Query, Reply>)
    ensures r.Success? <==>
              verb == "POST" && body.Decoded? &&
              body.value.deviceId != "" && body.value.startTime != "" && body.value.endTime != "" &&
              parse(body.value.startTime).Some? && parse(body.value.endTime).Some? &&
              parse(body.value.startTime).value <= parse(body.value.endTime).value
    ensures r.Success? ==>
              var q := body.value;
              r.value.deviceId == q.deviceId && r.value.metricName == q.metricName &&
              r.value.start == parse(q.startTime).value && r.value.end == parse(q.endTime).value &&
              r.value.start <= r.value.end &&
              1 <= r.value.limit <= MaxLimit && (1 <= q.limit <= MaxLimit ==> r.value.limit == q.limit) &&
              0 <= r.value.offset && (0 <= q.offset ==> r.value.offset == q.offset) &&
              (!(1 <= q.limit <= MaxLimit) ==> r.value.limit == DefaultLimit) &&
              (q.offset < 0 ==> r.value.offset == 0)
    ensures r.Failure? ==> r.error.HttpError? && r.error.status in {400, 405}
  {
    if verb != "POST" then Failure(MethodNotAllowed)
    else if !body.Decoded? then Failure(BodyError(body))
    else
      var q := body.value;
      if q.deviceId == "" || q.startTime == "" || q.endTime == "" then
        Failure(HttpError(400, "Missing required fields: device_id, start_time, end_time"))
      else if parse(q.startTime).None? then Failure(HttpError(400, "Invalid start_time format (RFC3339 required)"))
      else if parse(q.endTime).None? then Failure(HttpError(400, "Invalid end_time format (RFC3339 required)"))
      else if parse(q.startTime).value > parse(q.endTime).value then
        Failure(HttpError(400, "start_time must be before end_time"))
      else
        Success(Query(q.deviceId, q.metricName, parse(q.startTime).value, parse(q.endTime).value,
                      NormaliseLimit(q.limit), NormaliseOffset(q.offset)))
  }
}

=== FILE: payload.dfy ===
/**
 * The payload helpers of utils.go: the repeated-pattern padding and fallback
 * payloads, the target-size clamp, the bounded random integers, and the
 * base64-based validation and size reports.
 */
module Payload {
  import opened Wrappers
  import opened Base64

  const PaddingPattern: string := "_LOAD_TEST_PADDING_DATA_"
  const FallbackPattern: string := "FALLBACK_LOAD_TEST_DATA_"
  const PatternLength: nat := 24
  const DefaultTargetSize: int := 1024
  /** The largest payload a TEXT column holds. */
  const MaxPayloadSize: int := 65535
  const RandomIntBound: int := 10000

  /** strings.Repeat: `n` copies of `s`. */
  function Repeat(s: string, n: nat): (r: string)
    ensures |s| == PatternLength ==> |r| == n * PatternLength
  {
    if n == 0 then "" else Repeat(s, n - 1) + s
  }

  lemma {:induction false} RepeatAt(s: string, n: nat, i: int)
    requires |s| == PatternLength
    requires 0 <= i < n * PatternLength
    ensures Repeat(s, n)[i] == s[i % PatternLength]
  {
    if i < (n - 1) * PatternLength {
      RepeatAt(s, n - 1, i);
    }
  }

  lemma RepeatCycles(s: string, n: nat)
    requires |s| == PatternLength
    ensures forall i :: 0 <= i < n * PatternLength ==> Repeat(s, n)[i] == s[i % PatternLength]
  {
    forall i | 0 <= i < n * PatternLength
      ensures Repeat(s, n)[i] == s[i % PatternLength]
    {
      RepeatAt(s, n, i);
    }
  }

  /**
   * The repeat-then-remainder construction both generators use for sizes above
   * one pattern: exactly `size` characters cycling through `pattern`.
   */
  function Fill(pattern: string, size: int): (r: string)
    requires |pattern| == PatternLength && size > PatternLength
    ensures |r| == size
    ensures forall i :: 0 <= i < size ==> r[i] == pattern[i % PatternLength]
  {
    var repeats := size / PatternLength;
    var remainder := size % PatternLength;
    RepeatCycles(pattern, repeats);
    var whole := Repeat(pattern, repeats);
    if remainder > 0 then whole + pattern[..remainder] else whole
  }

  /** generatePadding: empty for a non-positive size, otherwise `size` characters of the cycled pattern. */
  function GeneratePadding(size: int): (r: string)
    ensures size <= 0 ==> r == ""
    ensures size > 0 ==> |r| == size
    ensures forall i :: 0 <= i < |r| ==> r[i] == PaddingPattern[i % PatternLength]
  {
    if size <= 0 then ""
    else if size <= PatternLength then
      assert forall i :: 0 <= i < size ==> i % PatternLength == i;
      PaddingPattern[..size]
    else Fill(PaddingPattern, size)
  }

  predicate IsAscii(s: string) {
    forall i :: 0 <= i < |s| ==> s[i] as int < 128
  }

  /** Go's []byte conversion of a string, for text that is plain ASCII. */
  function AsciiBytes(s: string): (b: seq<byte>)
    requires IsAscii(s)
    ensures |b| == |s| && forall i :: 0 <= i < |s| ==> b[i] as int == s[i] as int
  {
    seq(|s|, i requires 0 <= i < |s| && IsAscii(s) => s[i] as int as byte)
  }

  lemma FillAscii(pattern: string, size: int)
    requires |pattern| == PatternLength && size > PatternLength && IsAscii(pattern)
    ensures IsAscii(Fill(pattern, size))
  {
  }

  /**
   * generateFallbackPayload: the raw pattern prefix, not base64-encoded, for sizes up
   * to one pattern; otherwise the base64 encoding of `targetSize` cycled pattern bytes.
   */
  function GenerateFallbackPayload(targetSize: int): (r: string)
    requires targetSize >= 0
    ensures targetSize <= PatternLength ==> r == FallbackPattern[..targetSize]
    ensures targetSize > PatternLength ==>
              Decode(r).Some? && |Decode(r).value| == targetSize &&
              forall i :: 0 <= i < targetSize ==>
                Decode(r).value[i] as int == FallbackPattern[i % PatternLength] as int
  {
    if targetSize <= PatternLength then FallbackPattern[..targetSize]
    else
      FillAscii(FallbackPattern, targetSize);
      var bytes := AsciiBytes(Fill(FallbackPattern, targetSize));
      DecodeEncode(bytes);
      Encode(bytes)
  }

  /** The target-size clamp at the top of GenerateRandomPayload. */
  function ClampTargetSize(targetSize: int): (r: int)
    ensures 1 <= r <= MaxPayloadSize
    ensures 1 <= targetSize <= MaxPayloadSize ==> r == targetSize
    ensures targetSize <= 0 ==> r == DefaultTargetSize
    ensures targetSize > MaxPayloadSize ==> r == MaxPayloadSize
  {
    var t := if targetSize <= 0 then DefaultTargetSize else targetSize;
    if t > MaxPayloadSize then MaxPayloadSize else t
  }

  /**
   * The big-endian value of the i-th group of four random bytes. The source ORs the
   * shifted bytes together; the four bytes occupy disjoint bits, so this is the sum.
   */
  function Word(bytes: seq<byte>, i: nat): nat
    requires 4 * i + 3 < |bytes|
  {
    bytes[4 * i] as int * 16777216 + bytes[4 * i + 1] as int * 65536 +
    bytes[4 * i + 2] as int * 256 + bytes[4 * i + 3] as int
  }

  /**
   * generateRandomInts: fills a fresh array of `count` values, each the next four
   * random bytes reduced modulo 10000. The random bytes are an input.
   */
  method GenerateRandomInts(count: nat, bytes: seq<byte>) returns (result: array<int>)
    requires |bytes| == 4 * count
    ensures fresh(result) && result.Length == count
    ensures forall i :: 0 <= i < count ==> result[i] == Word(bytes, i) % RandomIntBound
    ensures forall i :: 0 <= i < count ==> 0 <= result[i] < RandomIntBound
  {
    result := new int[count];
    var i := 0;
    while i < count
      invariant 0 <= i <= count
      invariant forall j :: 0 <= j < i ==> result[j] == Word(bytes, j) % RandomIntBound
    {
      var v: int := Word(bytes, i);
      if v < 0 {
        // only reachable with a 32-bit int; Go's int is 64 bits on the targets modelled
        v := -v;
      }
      result[i] := v % RandomIntBound;
      i := i + 1;
    }
  }

  /** ValidatePayloadData: empty, or valid base64 decoding to at most 65535 bytes. */
  function ValidatePayloadData(data: string): (ok: bool)
    ensures data == "" ==> ok
    ensures data != "" && Decode(data).None? ==> !ok
    ensures ok <==> data == "" || (Decode(data).Some? && |Decode(data).value| <= MaxPayloadSize)
  {
    if data == "" then true
    else
      match Decode(data)
      case None => false
      case Some(decoded) => |decoded| <= MaxPayloadSize
  }

  /** GetPayloadSizeInBytes: the decoded length of valid base64, else the raw length. */
  function GetPayloadSizeInBytes(data: string): (n: nat)
    ensures Decode(data).Some? ==> n == |Decode(data).value|
    ensures Decode(data).None? ==> n == |data|
  {
    match Decode(data)
    case None => |data|
    case Some(decoded) => |decoded|
  }

  /** Encoded data is reported at its original size. */
  lemma SizeOfEncoded(b: seq<byte>)
    ensures GetPayloadSizeInBytes(Encode(b)) == |b|
  {
    DecodeEncode(b);
  }

  /** Encoded data passes validation exactly when it is at most 65535 bytes. */
  lemma ValidateEncoded(b: seq<byte>)
    ensures ValidatePayloadData(Encode(b)) <==> |b| <= MaxPayloadSize
  {
    DecodeEncode(b);
  }

  /** A fallback payload above one pattern is reported at the size it was generated for. */
  lemma SizeOfFallback(targetSize: int)
    requires targetSize > PatternLength
    ensures GetPayloadSizeInBytes(GenerateFallbackPayload(targetSize)) == targetSize
    ensures ValidatePayloadData(GenerateFallbackPayload(targetSize)) <==> targetSize <= MaxPayloadSize
  {
  }

  /** The structure GetPayloadInfo reads from a decoded JSON payload. */
  datatype PayloadShape = PayloadShape(loadCount: nat, sequenceCount: nat, targetSize: int)

  /** json.Unmarshal into PayloadData, left uninterpreted. */
  type JsonParser = seq<byte> -> Option<PayloadShape>

  datatype InfoValue = Flag(flag: bool) | Number(number: int)

  /** GetPayloadInfo: builds the report map entry by entry. */
  method GetPayloadInfo(data: string, parseJson: JsonParser) returns (info: map<string, InfoValue>)
    ensures "is_empty" in info && info["is_empty"] == Flag(data == "")
    ensures "raw_size" in info && info["raw_size"] == Number(|data|)
    ensures "is_valid" in info && info["is_valid"] == Flag(data == "" || Decode(data).Some?)
    ensures "decoded_size" in info &&
            info["decoded_size"] == Number(if data != "" && Decode(data).Some? then |Decode(data).value| else 0)
    ensures "has_structure" in info <==> data != "" && Decode(data).Some?
    ensures data != "" && Decode(data).Some? ==>
              var shape := parseJson(Decode(data).value);
              info["has_structure"] == Flag(shape.Some?) &&
              ("load_count" in info <==> shape.Some?) &&
              (shape.Some? ==>
                 info["load_count"] == Number(shape.value.loadCount) &&
                 "sequence_count" in info && info["sequence_count"] == Number(shape.value.sequenceCount) &&
                 "target_size" in info && info["target_size"] == Number(shape.value.targetSize))
    ensures data == "" || Decode(data).None? ==> "load_count" !in info
  {
    info := map["is_empty" := Flag(data == ""), "raw_size" := Number(|data|),
                "decoded_size" := Number(0), "is_valid" := Flag(false)];
    if data != "" {
      var decoded := Decode(data);
      if decoded.Some? {
        info := info["decoded_size" := Number(|decoded.value|)];
        info := info["is_valid" := Flag(true)];
        var shape := parseJson(decoded.value);
        if shape.Some? {
          info := info["has_structure" := Flag(true)];
          info := info["load_count" := Number(shape.value.loadCount)];
          info := info["sequence_count" := Number(shape.value.sequenceCount)];
          info := info["target_size" := Number(shape.value.targetSize)];
        } else {
          info := info["has_structure" := Flag(false)];
        }
      }
    } else {
      info := info["is_valid" := Flag(true)];
    }
  }
}

=== FILE: wrappers.dfy ===
/** Option and Result, the failure-carrying values the rest of the model returns. */
module Wrappers {

  datatype Option<+T> = None | Some(value: T)

  datatype Result<+T, +E> = Success(value: T) | Failure(error: E)
}

=== FILE: writer.dfy ===
/**
 * The buffered batch writer and the priority router of writer.go.
 *
 * A BatchWriter owns a buffer, a bounded admission channel and a control loop
 * that serialises every change to the buffer. The loop's `select` becomes one
 * method per event (a record arrives, the ticker fires, the context is
 * cancelled); the scheduler's choice among ready events is an input. A batch
 * handed to a background flushBatch goroutine is recorded in `dispatched`; its
 * own result is discarded by the source, so the model keeps only the batch.
 */
module Writer {
  import opened Database

  /** All batches concatenated in dispatch order. */
  function Flatten(batches: seq<seq<SensorData>>): (r: seq<SensorData>)
  {
    if batches == [] then []
    else Flatten(batches[..|batches| - 1]) + batches[|batches| - 1]
  }

  lemma FlattenSnoc(batches: seq<seq<SensorData>>, b: seq<SensorData>)
    ensures Flatten(batches + [b]) == Flatten(batches) + b
  {
    assert (batches + [b])[..|batches|] == batches;
  }

  /** The rows flushBatch executes: those whose timestamp parses, in order. */
  function Parsable(parse: TimeParser, rows: seq<SensorData>): (r: seq<SensorData>)
    ensures |r| <= |rows|
    ensures forall i :: 0 <= i < |r| ==> ValidTimestamp(parse, r[i].timestamp)
  {
    if rows == [] then []
    else
      var last := rows[|rows| - 1];
      Parsable(parse, rows[..|rows| - 1]) + (if ValidTimestamp(parse, last.timestamp) then [last] else [])
  }

  lemma {:induction false} ParsableAppend(parse: TimeParser, a: seq<SensorData>, b: seq<SensorData>)
    ensures Parsable(parse, a + b) == Parsable(parse, a) + Parsable(parse, b)
    decreases |b|
  {
    if b == [] {
      assert a + b == a;
    } else {
      var last := b[|b| - 1];
      ParsableAppend(parse, a, b[..|b| - 1]);
      assert (a + b)[..|a + b| - 1] == a + b[..|b| - 1];
    }
  }

  /** The index of the first row whose INSERT fails, or |rows|. */
  function FirstRejected(store: Store, rows: seq<SensorData>): (k: nat)
    ensures k <= |rows|
    ensures forall j :: 0 <= j < k ==> store.insertOk(rows[j])
    ensures k < |rows| ==> !store.insertOk(rows[k])
    decreases |rows|
  {
    if rows == [] || !store.insertOk(rows[0]) then 0
    else 1 + FirstRejected(store, rows[1..])
  }

  /** The first-rejected index is the one the caller has found. */
  lemma FirstRejectedIs(store: Store, rows: seq<SensorData>, n: nat)
    requires n <= |rows|
    requires forall j :: 0 <= j < n ==> store.insertOk(rows[j])
    requires n < |rows| ==> !store.insertOk(rows[n])
    ensures FirstRejected(store, rows) == n
  {
  }

  /**
   * The effect of flushBatch: an empty list does nothing; otherwise one transaction
   * in which rows with an unparseable timestamp are skipped, the others executed in
   * order, and the first failed INSERT aborts with nothing committed.
   */
  function FlushSpec(store: Store, parse: TimeParser, rows: seq<SensorData>): TxResult
  {
    if rows == [] then TxResult(Ok, false, [], [])
    else if !store.beginOk then TxResult(Err(BeginFailed), true, [], [])
    else if !store.prepareOk then TxResult(Err(PrepareFailed), true, [], [])
    else
      var valid := Parsable(parse, rows);
      var k := FirstRejected(store, valid);
      if k < |valid| then TxResult(Err(InsertFailed), true, valid[..k], [])
      else if !store.commitOk then TxResult(Err(CommitFailed), true, valid, [])
      else TxResult(Ok, true, valid, valid)
  }

  /**
   * What flushBatch promises: an empty list begins no transaction; otherwise the rows
   * with a parseable timestamp, and only those, are executed in order; the batch
   * commits exactly when every one of them is accepted and the transaction calls
   * succeed; a failed INSERT stops at the first rejected row and commits nothing.
   */
  lemma FlushProperties(store: Store, parse: TimeParser, rows: seq<SensorData>, r: TxResult)
    requires r == FlushSpec(store, parse, rows)
    ensures r.beginCalled <==> rows != []
    ensures r.outcome == Ok <==>
              rows == [] ||
              (store.beginOk && store.prepareOk && store.commitOk &&
               forall x :: x in Parsable(parse, rows) ==> store.insertOk(x))
    ensures r.committed == (if r.outcome == Ok then Parsable(parse, rows) else [])
    ensures |r.executed| <= |Parsable(parse, rows)|
    ensures r.executed == Parsable(parse, rows)[..|r.executed|]
    ensures forall j :: 0 <= j < |r.executed| ==> store.insertOk(r.executed[j])
    ensures r.outcome == Err(InsertFailed) ==>
              |r.executed| < |Parsable(parse, rows)| && !store.insertOk(Parsable(parse, rows)[|r.executed|])
    ensures r.outcome.Err? ==> r.outcome.error in {BeginFailed, PrepareFailed, InsertFailed, CommitFailed}
  {
  }

  /** A rejected row ends flushBatch with the parseable rows before it executed. */
  lemma FlushStopsAt(store: Store, parse: TimeParser, rows: seq<SensorData>, i: nat, executed: seq<SensorData>)
    requires store.beginOk && store.prepareOk
    requires i < |rows| && executed == Parsable(parse, rows[..i])
    requires forall j :: 0 <= j < |executed| ==> store.insertOk(executed[j])
    requires ValidTimestamp(parse, rows[i].timestamp) && !store.insertOk(rows[i])
    ensures FlushSpec(store, parse, rows) == TxResult(Err(InsertFailed), true, executed, [])
  {
    var rest := rows[i + 1..];
    assert rows == rows[..i + 1] + rest;
    assert rows[..i + 1][..i] == rows[..i];
    ParsableAppend(parse, rows[..i + 1], rest);
    var valid := Parsable(parse, rows);
    assert valid == executed + [rows[i]] + Parsable(parse, rest);
    assert valid[|executed|] == rows[i];
    assert valid[..|executed|] == executed;
    FirstRejectedIs(store, valid, |executed|);
  }

  /** flushBatch: the loop over the rows of one batch. */
  method FlushBatch(store: Store, parse: TimeParser, dataList: seq<SensorData>) returns (res: TxResult)
    ensures res == FlushSpec(store, parse, dataList)
  {
    if |dataList| == 0 {
      return TxResult(Ok, false, [], []);
    }
    if !store.beginOk {
      return TxResult(Err(BeginFailed), true, [], []);
    }
    if !store.prepareOk {
      return TxResult(Err(PrepareFailed), true, [], []);
    }
    var executed: seq<SensorData> := [];
    var i := 0;
    while i < |dataList|
      invariant 0 <= i <= |dataList|
      invariant executed == Parsable(parse, dataList[..i])
      invariant forall j :: 0 <= j < |executed| ==> store.insertOk(executed[j])
    {
      assert dataList[..i + 1][..i] == dataList[..i];
      if ValidTimestamp(parse, dataList[i].timestamp) {
        if !store.insertOk(dataList[i]) {
          FlushStopsAt(store, parse, dataList, i, executed);
          return TxResult(Err(InsertFailed), true, executed, []);
        }
        executed := executed + [dataList[i]];
      }
      i := i + 1;
    }
    assert dataList[..i] == dataList;
    FirstRejectedIs(store, executed, |executed|);
    assert FirstRejected(store, Parsable(parse, dataList)) == |executed|;
    if !store.commitOk {
      return TxResult(Err(CommitFailed), true, executed, []);
    }
    return TxResult(Ok, true, executed, executed);
  }

  /** Every batch holds between 1 and `limit` records. */
  predicate BatchesWithin(batches: seq<seq<SensorData>>, limit: int)
  {
    forall i :: 0 <= i < |batches| ==> 0 < |batches[i]| <= limit
  }

  /** The buffer length that triggers a flush, counting a non-positive batch size as 1. */
  function ThresholdOf(batchSize: int): int
  {
    if batchSize < 1 then 1 else batchSize
  }

  /**
   * The control loop's invariant over its state: every record taken from the channel
   * is in exactly one dispatched batch or, while the loop runs, in the buffer, in
   * order; the buffer stays below the threshold; batches hold 1 to threshold records.
   */
  ghost predicate LoopInvariant(batchSize: int, buffer: seq<SensorData>, dispatched: seq<seq<SensorData>>,
                                consumed: seq<SensorData>, stopped: bool, cancelled: bool)
  {
    0 <= batchSize &&
    Flatten(dispatched) + (if stopped then [] else buffer) == consumed &&
    (!stopped ==> |buffer| < ThresholdOf(batchSize)) &&
    BatchesWithin(dispatched, ThresholdOf(batchSize)) &&
    (stopped ==> cancelled)
  }

  /** Dispatching a non-empty buffer within the threshold keeps the invariant, whether the loop goes on or stops. */
  lemma FlushStep(batchSize: int, buffer: seq<SensorData>, dispatched: seq<seq<SensorData>>,
                  consumed: seq<SensorData>, cancelled: bool, stop: bool)
    requires 0 <= batchSize && Flatten(dispatched) + buffer == consumed
    requires BatchesWithin(dispatched, ThresholdOf(batchSize))
    requires 0 < |buffer| <= ThresholdOf(batchSize) && (stop ==> cancelled)
    ensures LoopInvariant(batchSize, if stop then buffer else [], dispatched + [buffer], consumed, stop, cancelled)
  {
    var after := dispatched + [buffer];
    assert Flatten(after) == consumed by {
      FlattenSnoc(dispatched, buffer);
    }
    assert BatchesWithin(after, ThresholdOf(batchSize)) by {
      BatchesWithinSnoc(dispatched, buffer, ThresholdOf(batchSize));
    }
    assert Flatten(after) + [] == consumed;
  }

  lemma BatchesWithinSnoc(batches: seq<seq<SensorData>>, b: seq<SensorData>, limit: int)
    requires BatchesWithin(batches, limit) && 0 < |b| <= limit
    ensures BatchesWithin(batches + [b], limit)
  {
    assert forall i :: 0 <= i < |batches| ==> (batches + [b])[i] == batches[i];
  }

  /** A received record either stays buffered or completes a batch of exactly the threshold. */
  lemma ArriveStep(batchSize: int, buffer: seq<SensorData>, dispatched: seq<seq<SensorData>>,
                   consumed: seq<SensorData>, cancelled: bool, r: SensorData)
    requires LoopInvariant(batchSize, buffer, dispatched, consumed, false, cancelled)
    ensures var next := buffer + [r];
            if |next| >= batchSize then
              |next| == ThresholdOf(batchSize) &&
              LoopInvariant(batchSize, [], dispatched + [next], consumed + [r], false, cancelled)
            else
              LoopInvariant(batchSize, next, dispatched, consumed + [r], false, cancelled)
  {
    var next := buffer + [r];
    assert Flatten(dispatched) + next == consumed + [r];
    if |next| >= batchSize {
      FlushStep(batchSize, next, dispatched, consumed + [r], cancelled, false);
    }
  }

  /** The event the control loop's `select` picks next. */
  datatype LoopEvent = Receive | Tick | Done

  /** The part of a BatchWriter that its control loop changes. */
  datatype LoopState = LoopState(
    buffer: seq<SensorData>,
    queue: seq<SensorData>,
    dispatched: seq<seq<SensorData>>,
    stopped: bool)

  /**
   * What one event does to the loop's state: nothing once the loop has returned;
   * a receive takes the channel head and flushes a full buffer; a tick flushes a
   * non-empty buffer; cancellation, once signalled, flushes and returns.
   */
  function EventEffect(batchSize: int, cancelled: bool, st: LoopState, e: LoopEvent): LoopState
  {
    if st.stopped then st
    else
      match e
      case Receive =>
        if st.queue == [] then st
        else
          var b := st.buffer + [st.queue[0]];
          if |b| >= batchSize then st.(buffer := [], queue := st.queue[1..], dispatched := st.dispatched + [b])
          else st.(buffer := b, queue := st.queue[1..])
      case Tick =>
        if st.buffer == [] then st
        else st.(buffer := [], dispatched := st.dispatched + [st.buffer])
      case Done =>
        if !cancelled then st
        else st.(dispatched := st.dispatched + (if st.buffer == [] then [] else [st.buffer]), stopped := true)
  }

  /** The events of a schedule, applied in order. */
  function Run(batchSize: int, cancelled: bool, st: LoopState, schedule: seq<LoopEvent>): LoopState
    decreases |schedule|
  {
    if schedule == [] then st
    else Run(batchSize, cancelled, EventEffect(batchSize, cancelled, st, schedule[0]), schedule[1..])
  }

  /** Serving event i of a schedule leaves the rest of the schedule to run. */
  lemma RunStep(batchSize: int, cancelled: bool, before: LoopState, schedule: seq<LoopEvent>, i: nat)
    requires i < |schedule|
    ensures Run(batchSize, cancelled, EventEffect(batchSize, cancelled, before, schedule[i]), schedule[i + 1..]) ==
            Run(batchSize, cancelled, before, schedule[i..])
  {
    assert schedule[i..][1..] == schedule[i + 1..];
  }

  /** Of two splittings of one sequence, the one with the shorter suffix has the longer prefix. */
  lemma SplitAt<T>(c: seq<T>, q: seq<T>, c0: seq<T>, q0: seq<T>)
    requires c + q == c0 + q0 && |q| <= |q0| && q == q0[|q0| - |q|..]
    ensures c == c0 + q0[..|q0| - |q|]
  {
    var m := |q0| - |q|;
    assert c0 + q0 == (c0 + q0[..m]) + q;
    assert c == (c + q)[..|c|];
  }

  /** A loop that has returned ignores every later event. */
  lemma {:induction false} RunStopped(batchSize: int, cancelled: bool, st: LoopState, schedule: seq<LoopEvent>)
    requires st.stopped
    ensures Run(batchSize, cancelled, st, schedule) == st
    decreases |schedule|
  {
    if schedule != [] {
      RunStopped(batchSize, cancelled, st, schedule[1..]);
    }
  }

  /**
   * The loop returns exactly when cancellation has been signalled and the schedule
   * offers a Done event, and the batches already dispatched are never touched.
   */
  lemma {:induction false} RunOutcome(batchSize: int, cancelled: bool, st: LoopState, schedule: seq<LoopEvent>)
    ensures var r := Run(batchSize, cancelled, st, schedule);
            r.stopped <==> st.stopped || (cancelled && Done in schedule)
    ensures var r := Run(batchSize, cancelled, st, schedule);
            |st.dispatched| <= |r.dispatched| && r.dispatched[..|st.dispatched|] == st.dispatched
    ensures var r := Run(batchSize, cancelled, st, schedule);
            |r.queue| <= |st.queue| && r.queue == st.queue[|st.queue| - |r.queue|..]
    decreases |schedule|
  {
    if schedule != [] {
      var next := EventEffect(batchSize, cancelled, st, schedule[0]);
      var r := Run(batchSize, cancelled, next, schedule[1..]);
      assert (r.stopped <==> next.stopped || (cancelled && Done in schedule[1..])) &&
             |next.dispatched| <= |r.dispatched| && r.dispatched[..|next.dispatched|] == next.dispatched &&
             |r.queue| <= |next.queue| && r.queue == next.queue[|next.queue| - |r.queue|..] by {
        RunOutcome(batchSize, cancelled, next, schedule[1..]);
      }
      assert schedule == [schedule[0]] + schedule[1..];
      assert r.dispatched[..|st.dispatched|] == r.dispatched[..|next.dispatched|][..|st.dispatched|];
    }
  }

  class BatchWriter {
    const batchSize: int
    /** The ticker period in milliseconds; ticks themselves are events. */
    const flushInterval: nat
    /** The records accumulated since the last flush. */
    var buffer: seq<SensorData>
    /** The records waiting in the admission channel, oldest first. */
    var queue: seq<SensorData>
    /** Every batch handed to flushBatch, in dispatch order. */
    var dispatched: seq<seq<SensorData>>
    /** The context has been cancelled (Close was called). */
    var cancelled: bool
    /** The control loop has returned. */
    var stopped: bool
    /** Every record Write accepted, in order. */
    ghost var admitted: seq<SensorData>
    /** Every record the loop took from the channel, in order. */
    ghost var consumed: seq<SensorData>

    /** The channel capacity, batchSize * 10; 0 is an unbuffered channel. */
    function QueueCapacity(): int {
      batchSize * 10
    }

    /** The buffer length that triggers a flush. */
    function Threshold(): int {
      ThresholdOf(batchSize)
    }

    /** The fields the control loop changes. */
    ghost function State(): LoopState
      reads this
    {
      LoopState(buffer, queue, dispatched, stopped)
    }

    ghost predicate LoopValid()
      reads this
    {
      LoopInvariant(batchSize, buffer, dispatched, consumed, stopped, cancelled)
    }

    ghost predicate Valid()
      reads this
    {
      LoopValid() &&
      |queue| <= QueueCapacity() &&
      admitted == consumed + queue
    }

    /** NewBatchWriter. */
    constructor (batchSize: int, flushInterval: nat)
      requires 0 <= batchSize && flushInterval > 0
      ensures Valid()
      ensures this.batchSize == batchSize && this.flushInterval == flushInterval
      ensures buffer == [] && queue == [] && dispatched == [] && admitted == []
      ensures !cancelled && !stopped
    {
      this.batchSize := batchSize;
      this.flushInterval := flushInterval;
      buffer := [];
      queue := [];
      dispatched := [];
      cancelled := false;
      stopped := false;
      admitted := [];
      consumed := [];
    }

    /** The body of the "record arrives" case: append, and flush the whole buffer once it is full. */
    method Arrive(r: SensorData)
      requires LoopValid() && !stopped
      modifies this`buffer, this`dispatched, this`consumed
      ensures LoopValid()
      ensures consumed == old(consumed) + [r]
      ensures var b := old(buffer) + [r];
        if |b| >= batchSize then
          buffer == [] && dispatched == old(dispatched) + [b] && |b| == Threshold()
        else
          buffer == b && dispatched == old(dispatched)
    {
      ArriveStep(batchSize, buffer, dispatched, consumed, cancelled, r);
      buffer := buffer + [r];
      consumed := consumed + [r];
      if |buffer| >= batchSize {
        dispatched := dispatched + [buffer];
        buffer := [];
      }
    }

    /**
     * Write: enqueue at the tail when the channel has room, otherwise fail with a
     * write timeout and change nothing. An unbuffered channel (capacity 0) hands the
     * record straight to the loop while it runs.
     */
    method Write(r: SensorData) returns (err: Outcome)
      requires Valid()
      modifies this
      ensures Valid()
      ensures err == Ok || err == Err(WriteTimeout)
      ensures err == Ok <==> if QueueCapacity() > 0 then |old(queue)| < QueueCapacity() else !old(stopped)
      ensures admitted == old(admitted) + (if err == Ok then [r] else [])
      ensures cancelled == old(cancelled) && stopped == old(stopped)
      ensures err != Ok ==> buffer == old(buffer) && queue == old(queue) && dispatched == old(dispatched)
      ensures err == Ok && QueueCapacity() > 0 ==>
                queue == old(queue) + [r] && buffer == old(buffer) && dispatched == old(dispatched)
      ensures err == Ok && QueueCapacity() == 0 ==>
                queue == [] && buffer == [] && dispatched == old(dispatched) + [[r]]
    {
      if QueueCapacity() > 0 {
        if |queue| < QueueCapacity() {
          Enqueue(r);
          return Ok;
        }
        return Err(WriteTimeout);
      }
      if stopped {
        return Err(WriteTimeout);
      }
      HandOff(r);
      return Ok;
    }

    /** A send into a channel with room: the record joins the tail. */
    method Enqueue(r: SensorData)
      requires Valid() && |queue| < QueueCapacity()
      modifies this`queue, this`admitted
      ensures Valid()
      ensures queue == old(queue) + [r] && admitted == old(admitted) + [r]
    {
      queue := queue + [r];
      admitted := admitted + [r];
    }

    /** A send into an unbuffered channel while the loop runs: the loop receives it at once. */
    method HandOff(r: SensorData)
      requires Valid() && QueueCapacity() == 0 && !stopped
      modifies this`buffer, this`dispatched, this`consumed, this`admitted
      ensures Valid()
      ensures admitted == old(admitted) + [r]
      ensures queue == [] && buffer == [] && dispatched == old(dispatched) + [[r]]
    {
      admitted := admitted + [r];
      assert batchSize == 0 && queue == [] && buffer == [];
      Arrive(r);
      assert [] + [r] == [r];
    }

    /** A record arrives from the channel. */
    method Receive()
      requires Valid() && !stopped && queue != []
      modifies this
      ensures Valid()
      ensures queue == old(queue[1..]) && admitted == old(admitted)
      ensures consumed == old(consumed) + [old(queue[0])]
      ensures var b := old(buffer) + [old(queue[0])];
        if |b| >= batchSize then
          buffer == [] && dispatched == old(dispatched) + [b] && |b| == Threshold()
        else
          buffer == b && dispatched == old(dispatched)
      ensures cancelled == old(cancelled) && !stopped
    {
      var r := queue[0];
      queue := queue[1..];
      Arrive(r);
    }

    /** The ticker fires: flush the buffer if it holds anything. */
    method Tick()
      requires Valid() && !stopped
      modifies this
      ensures Valid()
      ensures buffer == []
      ensures dispatched == old(dispatched) + (if old(buffer) == [] then [] else [old(buffer)])
      ensures queue == old(queue) && admitted == old(admitted) && consumed == old(consumed)
      ensures cancelled == old(cancelled) && !stopped
    {
      if |buffer| > 0 {
        FlushStep(batchSize, buffer, dispatched, consumed, cancelled, false);
        dispatched := dispatched + [buffer];
        buffer := [];
      }
    }

    /**
     * The context is cancelled: flush what is buffered, synchronously, and return.
     * Records still waiting in the channel stay there.
     */
    method Done()
      requires Valid() && cancelled && !stopped
      modifies this
      ensures Valid()
      ensures stopped
      ensures dispatched == old(dispatched) + (if old(buffer) == [] then [] else [old(buffer)])
      ensures buffer == old(buffer) && queue == old(queue)
      ensures admitted == old(admitted) && consumed == old(consumed) && cancelled
    {
      if |buffer| > 0 {
        FlushStep(batchSize, buffer, dispatched, consumed, cancelled, true);
        dispatched := dispatched + [buffer];
      }
      stopped := true;
    }

    /** Close: cancels the context; the loop notices it at its next Done event. */
    method Close()
      requires Valid()
      modifies this
      ensures Valid()
      ensures cancelled
      ensures buffer == old(buffer) && queue == old(queue) && dispatched == old(dispatched)
      ensures stopped == old(stopped) && admitted == old(admitted) && consumed == old(consumed)
    {
      cancelled := true;
    }

    /** One turn of the `select`: the chosen event's case, with the effect EventEffect describes. */
    method Serve(e: LoopEvent)
      requires Valid() && !stopped
      modifies this
      ensures Valid()
      ensures State() == EventEffect(batchSize, cancelled, old(State()), e)
      ensures admitted == old(admitted) && cancelled == old(cancelled)
      ensures var took := e.Receive? && old(queue) != [];
              queue == (if took then old(queue)[1..] else old(queue)) &&
              consumed == old(consumed) + (if took then [old(queue)[0]] else [])
      ensures |old(dispatched)| <= |dispatched| && dispatched[..|old(dispatched)|] == old(dispatched)
    {
      match e {
        case Receive =>
          if queue != [] {
            Receive();
          }
        case Tick =>
          Tick();
        case Done =>
          if cancelled {
            Done();
          }
      }
    }

    /**
     * processLoop: serves the events in `schedule`, the order in which its `select`
     * finds them ready, skipping an event that is not ready and returning after Done.
     */
    method ProcessLoop(schedule: seq<LoopEvent>)
      requires Valid()
      modifies this
      ensures Valid()
      ensures admitted == old(admitted) && cancelled == old(cancelled)
      ensures |queue| <= |old(queue)|
      ensures queue == old(queue)[|old(queue)| - |queue|..]
      ensures consumed == old(consumed) + old(queue)[..|old(queue)| - |queue|]
      ensures |old(dispatched)| <= |dispatched| && dispatched[..|old(dispatched)|] == old(dispatched)
      ensures State() == Run(batchSize, cancelled, old(State()), schedule)
    {
      var i := 0;
      while i < |schedule| && !stopped
        invariant 0 <= i <= |schedule|
        invariant Valid()
        invariant admitted == old(admitted) && cancelled == old(cancelled)
        invariant Run(batchSize, cancelled, State(), schedule[i..]) == Run(batchSize, cancelled, old(State()), schedule)
      {
        ghost var before := State();
        Serve(schedule[i]);
        RunStep(batchSize, cancelled, before, schedule, i);
        i := i + 1;
      }
      if stopped {
        RunStopped(batchSize, cancelled, State(), schedule[i..]);
      }
      RunOutcome(batchSize, cancelled, old(State()), schedule);
      SplitAt(consumed, queue, old(consumed), old(queue));
    }

    /** WriteBatch: a non-empty list goes straight to flushBatch, bypassing the buffer. */
    method WriteBatch(store: Store, parse: TimeParser, dataList: seq<SensorData>) returns (res: TxResult)
      ensures res == FlushSpec(store, parse, dataList)
    {
      if |dataList| == 0 {
        return TxResult(Ok, false, [], []);
      }
      res := FlushBatch(store, parse, dataList);
    }
  }

  /** The lane a record's priority selects: 1 high, 3 low, 2 and anything else medium. */
  function LaneOf(priority: int): (p: Priority)
    ensures 1 <= priority <= 3 ==> Code(p) == priority
    ensures !(1 <= priority <= 3) ==> p == Medium
  {
    if priority == 1 then High
    else if priority == 2 then Medium
    else if priority == 3 then Low
    else Medium
  }

  /** The records of `rows` that go to lane `p`, in their original order. */
  function Partition(rows: seq<SensorData>, p: Priority): seq<SensorData>
  {
    if rows == [] then []
    else
      var last := rows[|rows| - 1];
      Partition(rows[..|rows| - 1], p) + (if LaneOf(last.priority) == p then [last] else [])
  }

  lemma PartitionSnoc(init: seq<SensorData>, last: SensorData, p: Priority)
    ensures Partition(init + [last], p) == Partition(init, p) + (if LaneOf(last.priority) == p then [last] else [])
  {
    assert (init + [last])[..|init|] == init;
  }

  /** Every record of a lane's partition is routed to that lane. */
  lemma {:induction false} PartitionRoutes(rows: seq<SensorData>, p: Priority)
    ensures forall x :: x in Partition(rows, p) ==> LaneOf(x.priority) == p
  {
    if rows != [] {
      PartitionRoutes(rows[..|rows| - 1], p);
    }
  }

  /** Adding `x` to any one of three parts adds it to their union. */
  lemma UnionAdd<T>(a: multiset<T>, b: multiset<T>, c: multiset<T>, x: T)
    ensures (a + multiset{x}) + b + c == a + b + c + multiset{x}
    ensures a + (b + multiset{x}) + c == a + b + c + multiset{x}
    ensures a + b + (c + multiset{x}) == a + b + c + multiset{x}
  {
  }

  /** Every record lands in exactly one lane: the three partitions together are the input. */
  lemma {:induction false} PartitionExact(rows: seq<SensorData>)
    ensures multiset(rows) ==
            multiset(Partition(rows, High)) + multiset(Partition(rows, Medium)) + multiset(Partition(rows, Low))
    ensures |Partition(rows, High)| + |Partition(rows, Medium)| + |Partition(rows, Low)| == |rows|
  {
    if rows != [] {
      var init, last := rows[..|rows| - 1], rows[|rows| - 1];
      assert rows == init + [last];
      var h, m, l := Partition(init, High), Partition(init, Medium), Partition(init, Low);
      assert multiset(rows) == multiset(h) + multiset(m) + multiset(l) + multiset{last} &&
             |h| + |m| + |l| == |init| by {
        PartitionExact(init);
      }
      PartitionSnoc(init, last, High);
      PartitionSnoc(init, last, Medium);
      PartitionSnoc(init, last, Low);
      UnionAdd(multiset(h), multiset(m), multiset(l), last);
      match LaneOf(last.priority) {
        case High =>
          assert multiset(Partition(rows, High)) == multiset(h) + multiset{last};
        case Medium =>
          assert multiset(Partition(rows, Medium)) == multiset(m) + multiset{last};
        case Low =>
          assert multiset(Partition(rows, Low)) == multiset(l) + multiset{last};
      }
    }
  }

  /** The grouping loop at the top of PriorityWriter.WriteBatch. */
  method PartitionByLane(dataList: seq<SensorData>)
    returns (highPart: seq<SensorData>, mediumPart: seq<SensorData>, lowPart: seq<SensorData>)
    ensures highPart == Partition(dataList, High)
    ensures mediumPart == Partition(dataList, Medium)
    ensures lowPart == Partition(dataList, Low)
  {
    highPart, mediumPart, lowPart := [], [], [];
    var i := 0;
    while i < |dataList|
      invariant 0 <= i <= |dataList|
      invariant highPart == Partition(dataList[..i], High)
      invariant mediumPart == Partition(dataList[..i], Medium)
      invariant lowPart == Partition(dataList[..i], Low)
    {
      assert dataList[..i + 1][..i] == dataList[..i];
      match dataList[i].priority {
        case 1 =>
          highPart := highPart + [dataList[i]];
        case 2 =>
          mediumPart := mediumPart + [dataList[i]];
        case 3 =>
          lowPart := lowPart + [dataList[i]];
        case _ =>
          mediumPart := mediumPart + [dataList[i]];
      }
      i := i + 1;
    }
    assert dataList[..i] == dataList;
  }

  /** One value per lane. */
  datatype Lanes<T> = Lanes(high: T, medium: T, low: T) {
    function At(p: Priority): T {
      match p
      case High => high
      case Medium => medium
      case Low => low
    }
  }

  /** A lane call is made, and its result recorded, only for a non-empty partition. */
  function AddResult(results: map<Priority, TxResult>, p: Priority, part: seq<SensorData>, res: TxResult)
    : map<Priority, TxResult>
  {
    if part == [] then results else results[p := res]
  }

  /** A lane whose call failed joins the list of failed lanes. */
  function AddFailure(failed: seq<Priority>, p: Priority, part: seq<SensorData>, res: TxResult): seq<Priority>
  {
    if part != [] && res.outcome != Ok then failed + [p] else failed
  }

  /**
   * The bookkeeping of PriorityWriter.WriteBatch: after the three lane steps, a lane
   * has a result exactly when its partition is non-empty, and the failed list names
   * exactly the lanes whose result is an error.
   */
  lemma CollectLanes(parts: Lanes<seq<SensorData>>, outcomes: Lanes<TxResult>,
                     results: map<Priority, TxResult>, failed: seq<Priority>)
    requires results == AddResult(AddResult(AddResult(map[], High, parts.high, outcomes.high),
                                            Medium, parts.medium, outcomes.medium),
                                  Low, parts.low, outcomes.low)
    requires failed == AddFailure(AddFailure(AddFailure([], High, parts.high, outcomes.high),
                                             Medium, parts.medium, outcomes.medium),
                                  Low, parts.low, outcomes.low)
    ensures forall p :: p in results <==> parts.At(p) != []
    ensures forall p :: p in results ==> results[p] == outcomes.At(p)
    ensures forall p :: p in failed <==> p in results && results[p].outcome != Ok
  {
    forall p
      ensures p in results <==> parts.At(p) != []
      ensures p in results ==> results[p] == outcomes.At(p)
      ensures p in failed <==> p in results && results[p].outcome != Ok
    {
      match p {
        case High =>
        case Medium =>
        case Low =>
      }
    }
  }

  class PriorityWriter {
    const high: BatchWriter
    const medium: BatchWriter
    const low: BatchWriter

    function Lane(p: Priority): BatchWriter {
      match p
      case High => high
      case Medium => medium
      case Low => low
    }

    ghost predicate Valid()
      reads this, high, medium, low
    {
      high != medium && medium != low && high != low &&
      high.Valid() && medium.Valid() && low.Valid()
    }

    /** NewPriorityWriter: half, the full and twice the batch size, flushed every 100 ms, 500 ms and 2 s. */
    constructor (batchSize: int)
      requires 0 <= batchSize
      ensures Valid()
      ensures fresh(high) && fresh(medium) && fresh(low)
      ensures high.batchSize == batchSize / 2 && high.flushInterval == 100
      ensures medium.batchSize == batchSize && medium.flushInterval == 500
      ensures low.batchSize == batchSize * 2 && low.flushInterval == 2000
      ensures forall p :: Lane(p).buffer == [] && Lane(p).queue == [] && Lane(p).dispatched == []
      ensures forall p :: !Lane(p).cancelled && !Lane(p).stopped
    {
      high := new BatchWriter(batchSize / 2, 100);
      medium := new BatchWriter(batchSize, 500);
      low := new BatchWriter(batchSize * 2, 2000);
    }

    /** Write: hands the record to the lane its priority selects, and to no other. */
    method Write(data: SensorData) returns (err: Outcome)
      requires Valid()
      modifies Lane(LaneOf(data.priority))
      ensures Valid()
      ensures err == Ok || err == Err(WriteTimeout)
      ensures var w := Lane(LaneOf(data.priority));
        (err == Ok <==> if w.QueueCapacity() > 0 then |old(w.queue)| < w.QueueCapacity() else !old(w.stopped)) &&
        w.admitted == old(w.admitted) + (if err == Ok then [data] else [])
    ensures var w := Lane(LaneOf(data.priority));
        w.cancelled == old(w.cancelled) && w.stopped == old(w.stopped) &&
        (err != Ok ==> w.buffer == old(w.buffer) && w.queue == old(w.queue) && w.dispatched == old(w.dispatched))
    ensures var w := Lane(LaneOf(data.priority));
        err == Ok && w.QueueCapacity() > 0 ==>
          w.queue == old(w.queue) + [data] && w.buffer == old(w.buffer) && w.dispatched == old(w.dispatched)
    ensures var w := Lane(LaneOf(data.priority));
        err == Ok && w.QueueCapacity() == 0 ==>
          w.queue == [] && w.buffer == [] && w.dispatched == old(w.dispatched) + [[data]]
    {
      match data.priority
      case 1 =>
        err := high.Write(data);
      case 2 =>
        err := medium.Write(data);
      case 3 =>
        err := low.Write(data);
      case _ =>
        err := medium.Write(data);
    }

    /**
     * WriteBatch: partitions the list by the routing rule, writes each non-empty
     * partition through its lane's WriteBatch, and reports every lane that failed.
     * `results` holds the outcome of each lane call made.
     */
    method WriteBatch(store: Store, parse: TimeParser, dataList: seq<SensorData>)
      returns (err: Outcome, results: map<Priority, TxResult>)
      ensures forall p :: p in results <==> Partition(dataList, p) != []
      ensures forall p :: p in results ==> results[p] == FlushSpec(store, parse, Partition(dataList, p))
      ensures err == Ok <==> forall p :: p in results ==> results[p].outcome == Ok
      ensures err.Err? ==>
                err.error.LaneErrors? &&
                forall p :: p in err.error.lanes <==> p in results && results[p].outcome != Ok
    {
      var highPart, mediumPart, lowPart := PartitionByLane(dataList);
      var failed: seq<Priority> := [];
      results := map[];
      results, failed := FlushLane(High, highPart, store, parse, results, failed);
      results, failed := FlushLane(Medium, mediumPart, store, parse, results, failed);
      results, failed := FlushLane(Low, lowPart, store, parse, results, failed);
      ghost var parts := Lanes(highPart, mediumPart, lowPart);
      ghost var outcomes := Lanes(FlushSpec(store, parse, highPart), FlushSpec(store, parse, mediumPart),
                                  FlushSpec(store, parse, lowPart));
      CollectLanes(parts, outcomes, results, failed);
      forall p
        ensures parts.At(p) == Partition(dataList, p)
        ensures outcomes.At(p) == FlushSpec(store, parse, Partition(dataList, p))
      {
        match p {
          case High =>
          case Medium =>
          case Low =>
        }
      }
      if |failed| > 0 {
        err := Err(LaneErrors(failed));
      } else {
        err := Ok;
      }
    }

    /** One lane's share of WriteBatch: a non-empty partition is flushed and its result recorded. */
    method FlushLane(p: Priority, part: seq<SensorData>, store: Store, parse: TimeParser,
                     results: map<Priority, TxResult>, failed: seq<Priority>)
      returns (results': map<Priority, TxResult>, failed': seq<Priority>)
      ensures results' == AddResult(results, p, part, FlushSpec(store, parse, part))
      ensures failed' == AddFailure(failed, p, part, FlushSpec(store, parse, part))
    {
      results', failed' := results, failed;
      if |part| > 0 {
        var res := Lane(p).WriteBatch(store, parse, part);
        results' := results[p := res];
        if res.outcome != Ok {
          failed' := failed + [p];
        }
      }
    }

    /** Close: cancels every lane. */
    method Close() returns (err: Outcome)
      requires Valid()
      modifies high, medium, low
      ensures Valid()
      ensures err == Ok
      ensures forall p :: Lane(p).cancelled
      ensures forall p :: Lane(p).buffer == old(Lane(p).buffer) && Lane(p).queue == old(Lane(p).queue)
      ensures forall p :: Lane(p).dispatched == old(Lane(p).dispatched) && Lane(p).stopped == old(Lane(p).stopped)
    {
      high.Close();
      medium.Close();
      low.Close();
      err := Ok;
    }
  }
}
